=== FILE: README.md ===
# termlog core in Dafny

termlog is a terminal viewer that follows a growing log file. This project
models its sequential core as pure functions over immutable datatypes and
proves properties of them:

- **the delta parser** (`log_parser.dfy`, with character classes and
  trimming in `text.dfy`). It turns each newly appended chunk of the file
  into log items:
  - strip one leading `[date time.ms] [word]` metadata header;
  - remove every inline copy of that header;
  - split the rest at `## date time` separators into timed items;
  - append one synthetic "DYEH PAUSE" item when the word `onpause` occurs.

  The four regular expressions are replaced by hand-written recognisers of the
  same fixed shapes.
- **the view engine** (`app.dfy`, with the selection moves of `log_list.dfy`).
  Items are stored oldest first and shown newest first. The view keeps:
  - a visual selection and the identity of the selected item;
  - the offset of the top visible row;
  - the autoscroll flag.

  It covers polling the file (`update_logs`), filtering, restoring the
  selection by identity, keeping the selection in view, mouse clicks, and
  view scrolling.
- **small helpers**:
  - hard-wrapping text to a width (`content_lines.dfy`);
  - the file-change test (`metadata.dfy`);
  - choosing the live log file in a directory (`file_finder.dfy`);
  - the 50-entry debug buffer (`ui_logger.dfy`).

`wrappers.dfy` holds the `Option` and `Result` types.

Each operation has a partner that the proofs connect to it:

- the wrapper has a reference definition (split at newlines, then cut into
  chunks);
- the index maps are inverses of each other;
- recording and restoring the selection are inverses;
- the circular moves undo each other;
- the filtered rebuild is an order-preserving subsequence that distributes
  over appends;
- the view transitions keep two invariants:
  - `App.Consistent` holds after every event, filter mode included:
    selection and identity agree, a tracked identity is on the list, the
    offset is within the list, the list is an ordered subsequence of the raw
    items, and identities are distinct;
  - `App.Good` adds that the view shows exactly the raw items filtered by
    the filter text. It holds outside filter mode. While filter mode is open
    the text is edited without a rebuild, so only `App.Consistent` holds.
    Enter or Esc makes the engine good again.

Some choices differ from what the source reads as:

- **Selection calls.** The view calls `select_first`, `select_last`,
  `select_next` and `select_previous` on the item list. Only the circular and
  "traditional" moves are defined in `src/log_list.rs`, so:
  - `select_next`/`select_previous` are modelled as the traditional moves;
  - `select_first`/`select_last` (`LogList.SelectFirst`, `LogList.SelectLast`)
    are an ASSUMPTION: they select visual index 0 or `len - 1`, and nothing on
    an empty list.
- **Item fields.** Items as `src/app.rs` uses them carry an identity and a
  filter test that the `LogItem` of `src/log_parser.rs` lacks. Here:
  - an `App.Record` pairs a numeric identity from a counter (a random v4 uuid
    in the source) with the parsed item;
  - the filter test is a function parameter.
- **Leading header.** The code strips the leading header once. It is not
  idempotent (`LogParser.StripFirstHeaderTwice`), and specials are appended
  after the timed items rather than cut out and ordered by offset. The model
  follows the code.

## Model

| member | source | states |
|---|---|---|
| LogParser.HeaderLength | src/log_parser.rs:7-13 | a reported length is a header match: the fixed-width `[date time.ms] [` head, a non-empty `\w` name, `]`, then all the whitespace that follows |
| LogParser.HeaderMatchIsForced | src/log_parser.rs:7-13 | a header match is unique: the name ends at the first non-word character and the whitespace run is maximal |
| LogParser.HeaderRunsMatch | src/log_parser.rs:7-13 | the runs the recogniser measures form a header match when the name is followed by `]` |
| LogParser.HeaderLengthComplete | src/log_parser.rs:7-13 | every header match is found, with its length, so the recogniser reports None exactly when no header begins the text |
| LogParser.StripFirstHeaderRemovesMatch | src/log_parser.rs:65-70 | when a header begins the text, exactly that match is removed |
| LogParser.StripFirstHeader | src/log_parser.rs:7-9 | the result is a suffix of the input; the input unchanged when it does not begin with a header; otherwise at least 29 characters shorter and not starting with whitespace |
| LogParser.StripFirstHeaderTwice | src/log_parser.rs:65-70 | stripping is not idempotent: with two stacked headers a second strip removes the second one |
| LogParser.StripFirstHeaderStable | src/log_parser.rs:65-70 | a second strip changes nothing when no further header follows |
| LogParser.StripInlineHeaders | src/log_parser.rs:72-74 | never lengthens its input; returns it unchanged exactly when no header occurs anywhere, and otherwise removes at least one whole header (29 or more characters) |
| LogParser.NoHeaderInTail | src/log_parser.rs:11-13 | with no header at the front, a header occurs in the text exactly when one occurs in its tail |
| LogParser.StripInlineHeadersKeepsHead | src/log_parser.rs:72-74 | a character where no header starts is kept and the scan moves on |
| LogParser.StripInlineHeadersSkipsMatch | src/log_parser.rs:72-74 | a header at the scan position is removed and the scan resumes after it |
| LogParser.StripInlineHeadersLeftmost | src/log_parser.rs:72-74 | the leftmost-first meaning of `replace_all`: the text before the first header is kept, that header is removed, and the rest is scanned after it |
| LogParser.SeparatorsDoNotOverlap | src/log_parser.rs:16-17 | two separator matches never overlap, so the leftmost-first scan finds them all |
| LogParser.SeparatorStarts | src/log_parser.rs:95-98 | the scan reports separator positions in increasing order, non-overlapping, and every separator position is reported |
| LogParser.SeparatorStartsCount | src/log_parser.rs:95-98 | the number of starts equals the number of separator positions in the body |
| LogParser.IncreasingHasDistinctElements | src/log_parser.rs:95-98 | a strictly increasing list of starts has as many distinct positions as entries |
| LogParser.SeparatorStartsEmpty | src/log_parser.rs:95-101 | the scan finds nothing exactly when no separator occurs in the body |
| LogParser.BlockEnd | src/log_parser.rs:102-106 | each block ends at the next start or at the end of the body, after its own separator |
| LogParser.Block | src/log_parser.rs:103-107 | every block starts with a separator and runs to the next start or the end of the body |
| LogParser.Blocks | src/log_parser.rs:103-106 | one block per separator start, in order |
| LogParser.ParseStructured | src/log_parser.rs:19-20 | a block parses exactly when it begins with a separator; the time is the 19 characters after `## ` and the content the trimmed rest |
| LogParser.FilterMap | src/log_parser.rs:103-110 | the loop keeps at most one item per block |
| LogParser.FilterMapKeepsEvery | src/log_parser.rs:103-110 | when every element yields a result, none is dropped and result `i` is that of element `i` |
| LogParser.FilterMapKeepsProperty | src/log_parser.rs:103-110 | every kept result has any property all results of the map have |
| LogParser.ParseAllKeepsEvery | src/log_parser.rs:103-110 | when every block starts with a separator, none is dropped and item `i` is the item of block `i` |
| LogParser.BlockItemInBody | src/log_parser.rs:76-81 | a block's time is the 19 characters after its `## ` in the body, and its content the trimmed text up to the next separator or the end |
| LogParser.ContainsPauseFrom | src/log_parser.rs:41-43 | true exactly when a whole-word, case-insensitive `onpause` occurs from the given position on |
| LogParser.DetectSpecials | src/log_parser.rs:37-60 | at most one item; one exactly when the marker occurs; that item has an empty time and the content "DYEH PAUSE" |
| LogParser.ProcessDelta | src/log_parser.rs:84-115 | empty output for a body that is empty after stripping and trimming; otherwise one item per separator, each the parsed item of its block in source order, followed by the special items |
| LogParser.CountUntimedAppend | src/log_parser.rs:114 | the untimed-item count of a concatenation is the sum of the counts |
| LogParser.ParsedItemsAreTimed | src/log_parser.rs:103-110 | every item parsed from a block carries a time |
| LogParser.CountUntimedOfTimed | src/log_parser.rs:103-110 | a list whose items all carry a time counts no untimed item |
| LogParser.CountUntimedOfPauses | src/log_parser.rs:114 | a list of pause items counts each as untimed |
| LogParser.BodyItemsInOrder | src/log_parser.rs:96-115 | on a cleaned body, item k is the parsed item of block k for every separator, and the specials follow |
| LogParser.ProcessDeltaUntimed | src/log_parser.rs:84-115 | the untimed items of a non-empty delta are exactly its special items |
| LogParser.AtMostOnePause | src/log_parser.rs:37-59 | at most one pause item per delta, whatever the number of markers; there is one exactly when the body is non-empty and contains the marker |
| LogParser.NoSeparatorNoStructuredItems | src/log_parser.rs:100-114 | a non-empty body yields only the special items exactly when no separator occurs in it |
| Text.TrimStart | src/log_parser.rs:86 | the result is the input minus its maximal leading run of whitespace |
| Text.TrimEnd | src/log_parser.rs:86 | the result is the input minus its maximal trailing run of whitespace |
| Text.Trim | src/log_parser.rs:79 | the result is the middle of the input with all leading and trailing whitespace removed and none left at either end |
| Text.TrimOfPadded | src/log_parser.rs:79 | trimming whitespace-padded text with no whitespace at its ends gives that text back |
| Text.TrimAfterSpacePrefix | src/log_parser.rs:86 | dropping leading whitespace before trimming does not change the result |
| Text.TrimStartOfSpacePrefix | src/log_parser.rs:86 | trimming the start of whitespace followed by text that does not start with whitespace gives that text |
| Text.TrimEndOfSpaceSuffix | src/log_parser.rs:86 | trimming the end of text followed by whitespace gives that text |
| Text.SpaceRun | src/log_parser.rs:8 | the maximal run of whitespace at a position, as the greedy `\s*` matches it |
| Text.WordRun | src/log_parser.rs:8 | the maximal run of word characters at a position, as the greedy `\w+` matches it |
| LogList.SelectNextCircular | src/log_list.rs:17-36 | nothing on an empty list; otherwise in range: one step down, from the last item (or beyond) back to 0, and 0 from no selection |
| LogList.SelectPreviousCircular | src/log_list.rs:38-57 | nothing on an empty list; keeps a selection in range; one step up, from 0 round to `len - 1`, and `len - 1` from no selection |
| LogList.SelectNextTraditional | src/log_list.rs:59-78 | nothing on an empty list; otherwise in range; one step down or stays on the last item; 0 from no selection |
| LogList.SelectPreviousTraditional | src/log_list.rs:80-99 | nothing on an empty list; keeps a selection in range; one step up or stays on the first item; 0 from no selection |
| LogList.SelectFirst | src/app.rs:1001-1006 | assumed: visual index 0, nothing on an empty list |
| LogList.SelectLast | src/app.rs:1008-1013 | assumed: visual index `len - 1`, nothing on an empty list |
| LogList.CircularMovesAreInverse | src/log_list.rs:17-57 | circular previous undoes circular next, and the reverse, on any in-range selection |
| LogList.CircularWalk | src/log_list.rs:17-36 | `k <= len` circular steps down from `i` land on `i + k`, wrapped once |
| LogList.CircularNextCycles | src/log_list.rs:17-36 | `len` circular steps down return to the start |
| LogList.TraditionalMovesClamp | src/log_list.rs:59-99 | next stays on the last item, previous stays on the first, and away from the ends each undoes the other |
| App.SatSub | src/app.rs:188-190 | saturating subtraction: the difference when it is non-negative, else 0 |
| App.ToUnderlyingIndex | src/app.rs:188-190 | a visual index below `n` maps to the stored index that adds up with it to `n - 1` |
| App.ToVisualIndex | src/app.rs:192-194 | a stored index below `n` maps to the visual index that adds up with it to `n - 1` |
| App.IndexMapsAreInverse | src/app.rs:188-194 | the two index maps are inverses on `[0, n)` |
| App.FindById | src/app.rs:1055-1061 | the first position holding the identity, or nothing exactly when no item holds it |
| App.FindByIdDistinct | src/app.rs:1055-1061 | with distinct identities the position found is the only one |
| App.UpdateSelectionByUuid | src/app.rs:1064-1083 | with no tracked identity nothing changes; an identity not on the list clears selection and identity; a present one is kept and selected, and the selection shows it |
| App.UpdateSelectedUuid | src/app.rs:1086-1105 | only the tracked identity changes; none without a selection or on an empty list; for an in-range selection it is that of the item shown there |
| App.RecordThenRestore | src/app.rs:1064-1105 | recording the identity of a selection and restoring it returns the same selection |
| App.RestoreThenRecord | src/app.rs:1064-1105 | restoring a present identity then recording it reproduces that identity |
| App.Filter | src/app.rs:331-337 | the matching records, each one exactly when it is in the raw list and matches |
| App.Rebuild | src/app.rs:327-339 | all raw items for an empty filter, else exactly the matching ones, always as an order-preserving subsequence |
| App.SubsequenceOfTail | src/app.rs:331-337 | a subsequence of the tail of a list is a subsequence of the list |
| App.DropHead | src/app.rs:331-337 | dropping the first element of a subsequence leaves a subsequence |
| App.FilterIsSubsequence | src/app.rs:331-337 | filtering keeps raw order |
| App.FilterAppend | src/app.rs:331-337 | filtering distributes over concatenation |
| App.RebuildAppend | src/app.rs:224-231 | rebuilding after an append extends the list previously shown by the rebuilt new items |
| App.RestoreSelection | src/app.rs:233-241 | restores a present identity, clears a missing one, selects the newest item when nothing was tracked and autoscroll is on; selection and identity agree |
| App.AppendScroll | src/app.rs:243-258 | 0 with autoscroll; otherwise the old offset plus the items added, clamped to the last row |
| App.Stamp | src/app.rs:224 | each new item gets the next identity from the counter, in order |
| App.Append | src/app.rs:211-262 | raw items extended with the new ones, the view showing the filtered raw items; the tracked identity restored or dropped, or the newest item selected under autoscroll; offset 0 under autoscroll, else moved down by the items added and clamped |
| App.SelectionRestored | src/app.rs:233-241 | the four outcomes of restoring a selection on a rebuilt list, shared by the append and filter contracts |
| App.FilterScroll | src/app.rs:311-323 | `min(prev, n - 1)`: the old offset when it is within the list, exactly the last row when it is past it, 0 on an empty list |
| App.ApplyFilter | src/app.rs:297-324 | shows exactly the filtered raw items; the tracked identity restored or dropped, or the newest item selected under autoscroll; offset clamped to the last row |
| App.FilterDroppingSelectionClears | src/app.rs:1069-1074 | a filter that drops the selected item clears both the selection and the identity |
| App.ReadStart | src/app.rs:206-209 | reading restarts at 0 after the file shrank, else continues from the last length |
| App.UpdateLogs | src/app.rs:196-267 | nothing changes when the stat fails or the file is unchanged; on a change the snapshot and length are recorded; the new text's items are appended exactly when the file grew past the read offset and could be read |
| App.AppendKeepsTopRow | src/app.rs:249-257 | with autoscroll off and no clamping, the same item stays on the top row after an append |
| App.EnsureSelectionVisible | src/app.rs:743-791 | only the offset changes; unchanged without a selection or viewport; then within the list, with the selection inside the window and, for windows over two rows, a one-row margin where possible; the window moves just far enough: moving up puts the selection on the margin row (or the offset at 0), moving down puts it just above the bottom margin (or the offset on the last row) |
| App.VisibleSelectionKeepsScroll | src/app.rs:764-775 | a selection already inside the padded window leaves the offset unchanged |
| App.ClampScroll | src/app.rs:349-360 | only the offset changes; unchanged when within the list, otherwise exactly the last row |
| App.MoveSelection | src/app.rs:799-812 | a selection move keeps an in-range selection in range |
| App.Navigate | src/app.rs:799-822 | the selection is moved, its identity tracked, and it ends inside the window with the offset within the list |
| App.VisibleItems | src/app.rs:463-471 | the rows shown from the offset on, each the item at the matching newest-first position |
| App.NewestOnTop | src/app.rs:466-470 | at offset 0 the top row shows the newest item |
| App.RenderLogs | src/app.rs:438-461 | the offset is clamped: unchanged when within the list, otherwise exactly the last row; a click selects offset plus relative row only when that is below the item count and leaves the selection alone otherwise; autoscroll is on exactly at offset 0 |
| App.UpdateAutoscroll | src/app.rs:793-797 | autoscroll is on exactly when the offset is 0, nothing else changes |
| App.ViewScroll | src/app.rs:824-847 | only the offset moves: down by one unless at the last row, up by one saturating at 0 |
| App.ViewScrollRoundTrip | src/app.rs:824-847 | away from the ends, scrolling down then up (or up then down) returns to the same offset |
| App.ClearLogsAsWritten | src/app.rs:939-943 | everything cleared except the tracked identity and the offset |
| App.ClearLogsAsWrittenSkipsAutoselect | src/app.rs:233-241 | a concrete state where, after clearing as written and rendering, the next append under autoscroll selects nothing, while tracking nothing would select the newest item |
| App.ClearLogs | src/app.rs:939-943 | with the tracked identity cleared as well: nothing shown, selected or tracked, offset kept |
| App.ClearLogsThenAppendSelectsNewest | src/app.rs:233-241 | after the corrected clear and a render, autoscroll is on and any non-empty append selects the newest item |
| App.ClearLogsThenRenderIsGood | src/app.rs:939-943 | the next render after the corrected clear restores the engine invariant |
| App.EditFilter | src/app.rs:962-968 | `/` (src/app.rs:1015-1017) empties the filter text, a character is appended, Backspace drops the last one or leaves an empty text; nothing else changes |
| App.EditFilters | src/app.rs:962-968 | a run of filter-mode keys changes only the filter text |
| App.TypedThenErase | src/app.rs:962-968 | Backspace undoes a typed character |
| App.EditFiltersKeepConsistent | src/app.rs:962-968 | editing the filter text keeps the engine consistent |
| App.SubsequenceIsShorter | src/app.rs:327-338 | a filtered list is no longer than the raw list |
| App.ConsistentScrollFitsRaw | src/app.rs:341-347 | the offset of a consistent engine is in range for the whole raw list, which exit shows |
| App.FilterSessionEndsGood | src/app.rs:953-968 | `/`, any edits, then Enter or Esc (corrected) end in a good engine |
| App.ExitFilterModeAsWritten | src/app.rs:341-347 | shows all raw items and selects the newest, leaving the tracked identity as it was |
| App.ExitFilterModeLosesSync | src/app.rs:341-347 | a concrete good state (records "a" and "b", filter "a", record "a" selected) where `/` then Esc highlights one item while tracking another |
| App.ExitFilterMode | src/app.rs:341-347 | with the identity updated: all raw items shown, the newest selected, selection and identity agree, the identity on the list |
| App.StampKeepsIdsFresh | src/app.rs:224 | appending freshly numbered items keeps identities distinct and below the counter |
| App.InitialIsGood | src/app.rs:96 | the initial state satisfies the engine invariant |
| App.UpdateLogsKeepsGood | src/app.rs:196-267 | polling keeps the engine consistent, and good outside filter mode; a poll that reads items rebuilds, so it leaves the engine good |
| App.ApplyFilterKeepsGood | src/app.rs:297-324 | applying the filter, whatever text filter mode left, makes the engine good |
| App.ViewStepsKeepGood | src/app.rs:799-847 | moving the selection, rendering and view scrolling keep the engine invariant |
| App.ExitFilterModeKeepsGood | src/app.rs:341-347 | leaving filter mode, corrected, makes the engine good from any state with fresh identities and an offset within the raw list |
| ContentLines.ByteLen | src/content_line_maker.rs:18 | UTF-8 byte length, never less than the character count |
| ContentLines.AsciiByteLen | src/content_line_maker.rs:18 | for ASCII text the byte length is the character count |
| ContentLines.WrapContentAsWritten | src/content_line_maker.rs:3-30 | width 0 yields no lines |
| ContentLines.WrapContent | src/content_line_maker.rs:3-30 | width 0 yields no lines |
| ContentLines.FirstNewline | src/content_line_maker.rs:13 | the first newline position, or nothing when there is none |
| ContentLines.FirstNewlineUnique | src/content_line_maker.rs:13 | a newline with none before it is the first newline |
| ContentLines.Closed | src/content_line_maker.rs:13-15 | a newline-terminated piece yields at least one line |
| ContentLines.LoopIsWrapRef | src/content_line_maker.rs:12-29 | the loop equals the reference wrapping (split at newlines, cut into width-sized chunks) of the pending line plus the rest |
| ContentLines.WrapContentIsWrapRef | src/content_line_maker.rs:3-30 | the wrapper equals the reference wrapping |
| ContentLines.ClosedFullHead | src/content_line_maker.rs:18-21 | a full-width head of a terminated piece becomes its own line |
| ContentLines.OpenFullHead | src/content_line_maker.rs:18-21 | a full-width head of the final piece becomes its own line |
| ContentLines.FullHeadIsOneLine | src/content_line_maker.rs:18-21 | a full-width newline-free head becomes one line and wrapping continues after it |
| ContentLines.FullHeadBeforeNewline | src/content_line_maker.rs:18-21 | the same when a newline follows in the rest |
| ContentLines.ConcatAppend | src/content_line_maker.rs:12-27 | concatenation of lines distributes over appending line lists |
| ContentLines.ConcatClosed | src/content_line_maker.rs:12-22 | the lines of a terminated piece concatenate back to the piece |
| ContentLines.ConcatOpen | src/content_line_maker.rs:12-27 | the lines of the final piece concatenate back to the piece |
| ContentLines.RemoveNewlines | src/content_line_maker.rs:13-15 | the result holds no newline |
| ContentLines.RemoveNewlinesAppend | src/content_line_maker.rs:13-15 | newline removal distributes over concatenation |
| ContentLines.RemoveNewlinesOfNewlineFree | src/content_line_maker.rs:13-15 | newline-free text is unchanged by newline removal |
| ContentLines.WrapRefKeepsText | src/content_line_maker.rs:12-27 | the reference lines concatenate to the content with every newline removed |
| ContentLines.ClosedWellFormed | src/content_line_maker.rs:12-22 | lines of a terminated piece hold no newline and at most `width` characters |
| ContentLines.OpenWellFormed | src/content_line_maker.rs:12-27 | lines of the final piece hold no newline and at most `width` characters |
| ContentLines.WrapRefWellFormed | src/content_line_maker.rs:12-27 | every reference line holds no newline and at most `width` characters |
| ContentLines.WrapContentProperties | src/content_line_maker.rs:3-27 | width 0 or empty content gives no lines; no line holds a newline or exceeds the width; the lines concatenate to the content without its newlines |
| ContentLines.OpenShape | src/content_line_maker.rs:18-27 | a newline-free piece of length L gives `ceil(L / width)` lines, all but the last exactly `width` long |
| ContentLines.NewlineFreeShape | src/content_line_maker.rs:62-69 | newline-free content of length L wraps into `ceil(L / width)` lines, all but the last exactly `width` long |
| ContentLines.NewlineClosesLine | src/content_line_maker.rs:13-15 | a newline closes the current line even when it is empty |
| ContentLines.LoopsAgreeOnAscii | src/content_line_maker.rs:18 | on ASCII text the byte-length loop and the character-count loop agree |
| ContentLines.AsWrittenAgreesOnAscii | src/content_line_maker.rs:3-30 | on ASCII content the wrapper as written equals the corrected one |
| ContentLines.AsWrittenOverflowsOnMultibyte | src/content_line_maker.rs:18 | at width 1, "éé" stays one two-character line as written but becomes two lines when characters are counted |
| Metadata.HasChanged | src/metadata.rs:37-42 | changed exactly when there is no earlier snapshot or it differs from the current one: true with no snapshot, true on a different length or time, false when length, seconds and nanoseconds agree |
| FileFinder.LastDot | src/file_finder.rs:24 | the position of the last `.`, or nothing when there is none |
| FileFinder.LiveLogNames | src/file_finder.rs:10-33 | the names kept are exactly those of readable regular files with a live `.log` name |
| FileFinder.LexLeReflexive | src/file_finder.rs:39 | path order is reflexive |
| FileFinder.LexLeTotal | src/file_finder.rs:39 | any two names are ordered one way or the other |
| FileFinder.LexLeTransitive | src/file_finder.rs:39 | path order is transitive |
| FileFinder.MaxName | src/file_finder.rs:39-40 | the last name after sorting: one of the names, and no name sorts after it |
| FileFinder.FindLatestLiveLog | src/file_finder.rs:6-41 | an error exactly when the directory cannot be read or holds no live log; otherwise a live log name that no other live log name sorts after |
| FileFinder.LastDotBeforeSuffix | src/file_finder.rs:24-25 | the last dot of `x.y` with a dot-free `y` is the one before `y` |
| FileFinder.RotatedNameExcluded | src/file_finder.rs:23-29 | `base.suffix.log` (dot-free suffix) is live exactly when the suffix does not parse as a `u32` |
| FileFinder.PlainNameIsLive | src/file_finder.rs:18-30 | `base.log` with a dot-free base is always live |
| UiLogger.Entry | src/ui_logger.rs:20 | the entry is `[`, then the level name, then `] `, then the message |
| UiLogger.Push | src/ui_logger.rs:21-26 | the new element is last; the buffer stays within 50; at capacity exactly the oldest is dropped and the order kept |
| UiLogger.Log | src/ui_logger.rs:15-29 | every record's entry is pushed: it is last, the buffer stays within 50, at capacity the oldest is dropped |
| UiLogger.PushIsNewest | src/ui_logger.rs:22-26 | one push from within capacity keeps the newest 50 of the buffer plus the new entry |
| UiLogger.Newest | src/ui_logger.rs:24-26 | the last 50 elements (all when fewer) |
| UiLogger.PushAllKeepsNewest | src/ui_logger.rs:22-26 | after any number of pushes the buffer holds exactly the newest 50 elements ever pushed, in order |
| UiLogger.NewestOfNewest | src/ui_logger.rs:24-26 | trimming to the newest 50 before appending more does not change which survive |

## Left out

- Rendering, layout, colours and the details and debug panels (`render_*`) are left out. From `render_logs`, only the offset clamp, the click mapping and the visible slice are kept.
- Key and mouse decoding are left out. The operations they invoke take the key's meaning, the clicked row and the viewport height as parameters.
- The `filter_mode` flag is left out. It only routes keys to the filter-mode handlers. The handlers themselves are modelled (`App.EditFilter`, `App.ApplyFilter`, `App.ExitFilterMode`), and the invariants say which state holds inside and outside the mode.
- File I/O is left out:
  - `stat` becomes an `Option<MetaSnap>` parameter of `App.UpdateLogs`;
  - the mapped and UTF-8-lossily decoded delta becomes an `Option<string>` parameter;
  - the directory listing becomes an `Option<seq<DirEntry>>` parameter.
- Concurrency is left out: the mutex around the debug buffer and the global logger registration.
- The clipboard yank, detail levels and folding are left out: they do not touch the modelled state.
- `LogItem::contains`, `get_preview_text` and the `level` field are left out because their definitions are not part of this model. Filtering takes the match test as a parameter.
- The random v4 uuids are left out. Identities come from a counter, which makes them distinct by construction (`App.IdsFresh`).
- Character classes: `\d`, `\w` and `\b` are treated as ASCII-only, while the Rust regex crate is Unicode-aware for them. Whitespace (`\s`, `trim`) uses the full Unicode White_Space set.
- Case-insensitive matching: only simple case folding of `onpause` is modelled, including U+017F (long s) for `s`.
- The scroll state of the panel widget (`AppBlock`) is not part of this model. It is kept as a plain offset.
- App.ViewScroll: the line count is taken to be the number of displayed items. The source reads a count stored at the last render or update, and after `clear_logs` or `exit_filter_mode` that count can lag until the next render.
- App.UpdateLogs: the clamping of the requested byte range to the mapped length is not modelled. The delta parameter stands for whatever text was read.
- ContentLines.WrapContent: the `u16` width is an unbounded natural. Widening it to `usize` cannot wrap, so nothing is lost.
- Metadata.HasChanged: `i64`/`u64` field widths are not modelled, since the function only compares the fields for equality.
- LogList.SelectFirst / LogList.SelectLast: these are assumptions, because neither is defined in `src/log_list.rs`.

## Findings

| source | as written | input that shows it | evidently intended | confidence | as-written member | corrected member |
|---|---|---|---|---|---|---|
| src/content_line_maker.rs:18 | a line is closed when its UTF-8 byte length equals the width | `"éé"` at width 1: the first `é` is 2 bytes, never equal to 1, so the line grows past the width and one 2-character line comes out | close the line when it holds `width` characters, so no line exceeds the width | not executed; medium | ContentLines.WrapContentAsWritten, ContentLines.AsWrittenOverflowsOnMultibyte | ContentLines.WrapContent, ContentLines.WrapContentProperties |
| src/app.rs:341-347 | leaving filter mode selects the newest item but does not update the tracked identity, unlike every other caller of `select_first` | raw records with identities 0 and 1, filtered view showing only record 0, selected and tracked: afterwards record 1 is highlighted while identity 0 is still tracked, so the next restore by identity would move the highlight back to record 0 (records "a" and "b", filter "a", then `/` and Esc) | call `update_selected_uuid` after `select_first`, as `update_logs`, `apply_filter` and the `g` key do | not executed; medium (assumes `select_first` selects visual index 0) | App.ExitFilterModeAsWritten, App.ExitFilterModeLosesSync | App.ExitFilterMode, App.ExitFilterModeKeepsGood |
| src/app.rs:939-943 | clearing keeps the tracked identity of an item that is no longer on any list | a selected, tracked record with autoscroll on, then `c`, a render and an append of one item: the append takes the restore-by-identity branch, finds nothing, and leaves nothing selected, although with no selection the code intends to select the newest item under autoscroll (src/app.rs:238) | clear the tracked identity with the items, so the next append under autoscroll selects the newest item | not executed; low (the stale identity only costs the automatic selection) | App.ClearLogsAsWritten, App.ClearLogsAsWrittenSkipsAutoselect | App.ClearLogs, App.ClearLogsThenAppendSelectsNewest |

=== FILE: app.dfy ===
/**
 * The view engine of the log viewer (src/app.rs): the raw items read so far,
 * the filtered list on display, the selection kept both as a visual index
 * and as the identity of the selected item, and the scroll offset of the LOGS
 * panel.
 *
 * Items are stored oldest first and displayed newest first: visual index 0 is
 * the last stored item. Rendering, key and mouse decoding and file I/O are
 * not modelled; what they feed in (the viewport height, the clicked row, the
 * file's metadata and the appended text) are parameters.
 */
module App {
  import opened Wrappers
  import opened LogParser
  import opened LogList
  import opened Metadata

  /** `usize::saturating_sub`. */
  function SatSub(a: nat, b: nat): (r: nat)
    ensures a >= b ==> r + b == a
    ensures a < b ==> r == 0
  {
    if a >= b then a - b else 0
  }

  /**
   * A displayed log item: its identity (a random v4 uuid in the source,
   * modelled as a number drawn from a counter) and its parsed fields.
   */
  datatype Record = Record(id: nat, item: LogItem)

  /**
   * The state of the LOGS panel: the items on display (oldest first), the
   * selected visual index, the identity the view believes is selected, the
   * index of the top visible row and whether new items scroll into view.
   */
  datatype View = View(
    items: seq<Record>,
    selected: Option<nat>,
    selectedId: Option<nat>,
    scroll: nat,
    autoscroll: bool)

  /** The whole engine: raw items, filter text, the view, and the file-polling state. */
  datatype AppState = AppState(
    raw: seq<Record>,
    filter: string,
    view: View,
    lastLen: nat,
    prevMeta: Option<MetaSnap>,
    nextId: nat)

  /**
   * `LogItem::contains`, whose definition is not part of this model: whether
   * an item matches a non-empty filter text. Every operation that filters
   * takes it as a parameter.
   */
  type Contains = (LogItem, string) -> bool

  /** `App::new`: nothing read, nothing shown, autoscroll on. */
  function Initial(): (app: AppState)
    ensures app.raw == [] && app.view.items == [] && app.view.selected.None?
    ensures app.view.scroll == 0 && app.view.autoscroll
  {
    AppState([], "", View([], None, None, 0, true), 0, None, 0)
  }

  // ---------------------------------------------------------------------------
  // Visual and underlying indices
  // ---------------------------------------------------------------------------

  /** `to_underlying_index`: the stored position of the item shown at a visual index. */
  function ToUnderlyingIndex(total: nat, visual: nat): (u: nat)
    ensures visual < total ==> u < total && u + visual == total - 1
    ensures visual >= total ==> u == 0
  {
    SatSub(SatSub(total, 1), visual)
  }

  /** `to_visual_index`: the visual index at which a stored position is shown. */
  function ToVisualIndex(total: nat, underlying: nat): (v: nat)
    ensures underlying < total ==> v < total && v + underlying == total - 1
    ensures underlying >= total ==> v == 0
  {
    SatSub(SatSub(total, 1), underlying)
  }

  /** The two maps are inverse bijections of `[0, total)`. */
  lemma IndexMapsAreInverse(total: nat, i: nat)
    requires i < total
    ensures ToVisualIndex(total, ToUnderlyingIndex(total, i)) == i
    ensures ToUnderlyingIndex(total, ToVisualIndex(total, i)) == i
  {
  }

  // ---------------------------------------------------------------------------
  // Selection by identity
  // ---------------------------------------------------------------------------

  /** Some displayed item has identity `id`. */
  predicate HasId(items: seq<Record>, id: nat) {
    exists j :: 0 <= j < |items| && items[j].id == id
  }

  /** No identity occurs twice. */
  predicate DistinctIds(items: seq<Record>) {
    forall a, b :: 0 <= a < b < |items| ==> items[a].id != items[b].id
  }

  /** `find_log_by_uuid`: the first stored position holding identity `id`. */
  function FindById(items: seq<Record>, id: nat): (r: Option<nat>)
    ensures r.Some? ==> r.value < |items| && items[r.value].id == id
    ensures r.Some? ==> forall j :: 0 <= j < r.value ==> items[j].id != id
    ensures r.None? <==> !HasId(items, id)
  {
    FindFrom(items, id, 0)
  }

  function FindFrom(items: seq<Record>, id: nat, i: nat): (r: Option<nat>)
    requires i <= |items|
    requires forall j :: 0 <= j < i ==> items[j].id != id
    ensures r.Some? ==> i <= r.value < |items| && items[r.value].id == id
    ensures r.Some? ==> forall j :: 0 <= j < r.value ==> items[j].id != id
    ensures r.None? ==> forall j :: 0 <= j < |items| ==> items[j].id != id
    decreases |items| - i
  {
    if i == |items| then None
    else if items[i].id == id then Some(i)
    else FindFrom(items, id, i + 1)
  }

  /** With distinct identities the record found is the only one holding that identity. */
  lemma FindByIdDistinct(items: seq<Record>, j: nat)
    requires DistinctIds(items) && j < |items|
    ensures FindById(items, items[j].id) == Some(j)
  {
  }

  /**
   * The selection and the tracked identity agree: a selected visual index is
   * on the list and the tracked identity is that of the item shown there.
   */
  predicate Synced(v: View) {
    v.selected.Some? ==>
      && v.selected.value < |v.items|
      && v.selectedId == Some(v.items[ToUnderlyingIndex(|v.items|, v.selected.value)].id)
  }

  /** A tracked identity belongs to an item on the list. */
  predicate Tracked(v: View) {
    v.selectedId.Some? ==> HasId(v.items, v.selectedId.value)
  }

  /** `update_selection_by_uuid`: move the visual selection to the item with the tracked identity. */
  function UpdateSelectionByUuid(v: View): (r: View)
    ensures r.items == v.items && r.scroll == v.scroll && r.autoscroll == v.autoscroll
    ensures v.selectedId.None? ==> r == v
    ensures v.selectedId.Some? && !HasId(v.items, v.selectedId.value) ==>
      r.selected.None? && r.selectedId.None?
    ensures v.selectedId.Some? && HasId(v.items, v.selectedId.value) ==>
      r.selectedId == v.selectedId && r.selected.Some?
    ensures v.selectedId.Some? ==> Synced(r)
  {
    match v.selectedId
    case None => v
    case Some(id) =>
      match FindById(v.items, id)
      case None => v.(selected := None, selectedId := None)
      case Some(u) =>
        var total := |v.items|;
        if total > 0 then v.(selected := Some(ToVisualIndex(total, u))) else v.(selected := None)
  }

  /** `update_selected_uuid`: track the identity of the item at the visual selection. */
  function UpdateSelectedUuid(v: View): (r: View)
    ensures r == v.(selectedId := r.selectedId)
    ensures v.selected.None? || |v.items| == 0 ==> r.selectedId.None?
    ensures InRange(|v.items|, v.selected) ==> Synced(r)
  {
    match v.selected
    case None => v.(selectedId := None)
    case Some(visual) =>
      var total := |v.items|;
      if total == 0 then v.(selectedId := None)
      else
        var underlying := ToUnderlyingIndex(total, visual);
        if underlying < total then v.(selectedId := Some(v.items[underlying].id))
        else v.(selectedId := None)
  }

  /** Restoring after recording finds the same item again, when identities are distinct. */
  lemma RecordThenRestore(v: View)
    requires DistinctIds(v.items) && v.selected.Some? && v.selected.value < |v.items|
    ensures UpdateSelectionByUuid(UpdateSelectedUuid(v)) == UpdateSelectedUuid(v)
  {
    var n := |v.items|;
    var u := ToUnderlyingIndex(n, v.selected.value);
    FindByIdDistinct(v.items, u);
  }

  /** Recording after restoring reproduces the tracked identity. */
  lemma RestoreThenRecord(v: View)
    requires v.selectedId.Some? && HasId(v.items, v.selectedId.value)
    ensures UpdateSelectedUuid(UpdateSelectionByUuid(v)) == UpdateSelectionByUuid(v)
    ensures UpdateSelectionByUuid(v).selectedId == v.selectedId
  {
  }

  // ---------------------------------------------------------------------------
  // The filtered list
  // ---------------------------------------------------------------------------

  /** The records of `raw` that match `filter`, in order. */
  function Filter(raw: seq<Record>, filter: string, contains: Contains): (r: seq<Record>)
    ensures |r| <= |raw|
    ensures forall x :: x in r <==> x in raw && contains(x.item, filter)
  {
    if |raw| == 0 then []
    else
      var rest := Filter(raw[1..], filter, contains);
      assert forall x :: x in raw <==> x == raw[0] || x in raw[1..];
      if contains(raw[0].item, filter) then [raw[0]] + rest else rest
  }

  /** `rebuild_filtered_list`: every raw record when the filter is empty, else the matching ones. */
  function Rebuild(raw: seq<Record>, filter: string, contains: Contains): (r: seq<Record>)
    ensures filter == [] ==> r == raw
    ensures filter != [] ==> forall x :: x in r <==> x in raw && contains(x.item, filter)
    ensures IsSubsequence(r, raw)
  {
    FilterIsSubsequence(raw, filter, contains);
    if filter == [] then
      SubsequenceReflexive(raw);
      raw
    else Filter(raw, filter, contains)
  }

  /** `a` is `b` with some elements left out, in the same order. */
  predicate IsSubsequence<T(==)>(a: seq<T>, b: seq<T>)
    decreases |b|
  {
    if |a| == 0 then true
    else if |b| == 0 then false
    else if a[0] == b[0] then IsSubsequence(a[1..], b[1..])
    else IsSubsequence(a, b[1..])
  }

  lemma {:induction false} SubsequenceReflexive<T>(a: seq<T>)
    ensures IsSubsequence(a, a)
  {
    if |a| > 0 {
      SubsequenceReflexive(a[1..]);
    }
  }

  /** A subsequence of the tail of `b` is a subsequence of `b`. */
  lemma {:induction false} SubsequenceOfTail<T>(a: seq<T>, b: seq<T>)
    requires |b| > 0 && IsSubsequence(a, b[1..])
    ensures IsSubsequence(a, b)
    decreases |b|, 1
  {
    if |a| > 0 && a[0] == b[0] {
      DropHead(a, b[1..]);
    }
  }

  /** Dropping the first element of a subsequence leaves a subsequence. */
  lemma {:induction false} DropHead<T>(a: seq<T>, c: seq<T>)
    requires |a| > 0 && IsSubsequence(a, c)
    ensures IsSubsequence(a[1..], c)
    decreases |c|, 2
  {
    if a[0] == c[0] {
      SubsequenceOfTail(a[1..], c);
    } else {
      DropHead(a, c[1..]);
      SubsequenceOfTail(a[1..], c);
    }
  }

  lemma {:induction false} FilterIsSubsequence(raw: seq<Record>, filter: string, contains: Contains)
    ensures IsSubsequence(Filter(raw, filter, contains), raw)
  {
    if |raw| > 0 {
      FilterIsSubsequence(raw[1..], filter, contains);
      var rest := Filter(raw[1..], filter, contains);
      if contains(raw[0].item, filter) {
        assert ([raw[0]] + rest)[1..] == rest;
      } else {
        SubsequenceOfTail(rest, raw);
      }
    }
  }

  /** Filtering a concatenation filters each part. */
  lemma {:induction false} FilterAppend(a: seq<Record>, b: seq<Record>, filter: string, contains: Contains)
    ensures Filter(a + b, filter, contains) == Filter(a, filter, contains) + Filter(b, filter, contains)
  {
    if |a| > 0 {
      assert (a + b)[1..] == a[1..] + b;
      FilterAppend(a[1..], b, filter, contains);
    } else {
      assert a + b == b;
    }
  }

  /** Rebuilding after an append extends the list shown before. */
  lemma RebuildAppend(raw: seq<Record>, extra: seq<Record>, filter: string, contains: Contains)
    ensures Rebuild(raw + extra, filter, contains)
         == Rebuild(raw, filter, contains) + Rebuild(extra, filter, contains)
  {
    if filter != [] {
      FilterAppend(raw, extra, filter, contains);
    }
  }

  // ---------------------------------------------------------------------------
  // Appending new items and applying the filter
  // ---------------------------------------------------------------------------

  /** The scroll offset lies within the list: at most the last visual index. */
  predicate ScrollInRange(v: View) {
    v.scroll <= SatSub(|v.items|, 1)
  }

  /**
   * The common tail of `update_logs` and `apply_filter`: the rebuilt list
   * starts without a selection; the previously tracked identity is looked up
   * again, or, with nothing tracked and autoscroll on, the newest item is
   * selected.
   */
  function RestoreSelection(items: seq<Record>, prevId: Option<nat>, autoscroll: bool, scroll: nat): (r: View)
    ensures r.items == items && r.scroll == scroll && r.autoscroll == autoscroll
    ensures Synced(r) && Tracked(r)
    ensures prevId.Some? && HasId(items, prevId.value) ==> r.selectedId == prevId && r.selected.Some?
    ensures prevId.Some? && !HasId(items, prevId.value) ==> r.selected.None? && r.selectedId.None?
    ensures prevId.None? && autoscroll && |items| > 0 ==> r.selected == Some(0)
    ensures prevId.None? && (!autoscroll || |items| == 0) ==> r.selected.None? && r.selectedId.None?
  {
    var initial := View(items, None, prevId, scroll, autoscroll);
    if prevId.Some? then UpdateSelectionByUuid(initial)
    else if autoscroll then UpdateSelectedUuid(initial.(selected := SelectFirst(|items|)))
    else initial
  }

  /**
   * The scroll offset after an append: 0 with autoscroll on; otherwise the
   * old offset moved down by the number of items added, so the same rows stay
   * in view, but not past the last row.
   */
  function AppendScroll(autoscroll: bool, prev: nat, oldCount: nat, newCount: nat): (s: nat)
    ensures autoscroll ==> s == 0
    ensures s <= SatSub(newCount, 1)
    ensures !autoscroll && prev + SatSub(newCount, oldCount) <= SatSub(newCount, 1) ==>
      s == prev + SatSub(newCount, oldCount)
    ensures !autoscroll && prev + SatSub(newCount, oldCount) > SatSub(newCount, 1) ==>
      s == SatSub(newCount, 1)
  {
    if autoscroll then 0
    else
      var added := SatSub(newCount, oldCount);
      var top := prev + added;
      var maxTop := SatSub(newCount, 1);
      if top < maxTop then top else maxTop
  }

  /** The records for newly parsed items, numbered from `next` on. */
  function Stamp(items: seq<LogItem>, next: nat): (r: seq<Record>)
    ensures |r| == |items|
    ensures forall k :: 0 <= k < |items| ==> r[k] == Record(next + k, items[k])
  {
    seq(|items|, k requires 0 <= k < |items| => Record(next + k, items[k]))
  }

  /** The body of `update_logs` once new items are in hand: extend, rebuild, restore, rescroll. */
  function Append(app: AppState, items: seq<LogItem>, contains: Contains): (r: AppState)
    ensures r.raw == app.raw + Stamp(items, app.nextId)
    ensures r.nextId == app.nextId + |items| && r.filter == app.filter
    ensures r.view.items == Rebuild(r.raw, app.filter, contains)
    ensures r.lastLen == app.lastLen && r.prevMeta == app.prevMeta
    ensures r.view.autoscroll == app.view.autoscroll
    ensures Synced(r.view) && ScrollInRange(r.view) && Tracked(r.view)
    ensures r.view.scroll == AppendScroll(app.view.autoscroll, app.view.scroll, |app.view.items|, |r.view.items|)
    ensures SelectionRestored(app.view, r.view)
  {
    var raw := app.raw + Stamp(items, app.nextId);
    var shown := Rebuild(raw, app.filter, contains);
    var scroll := AppendScroll(app.view.autoscroll, app.view.scroll, |app.view.items|, |shown|);
    var view := RestoreSelection(shown, app.view.selectedId, app.view.autoscroll, scroll);
    app.(raw := raw, view := view, nextId := app.nextId + |items|)
  }

  /**
   * How a rebuilt list `after` takes over the selection of `before`: the
   * tracked identity is kept and shown when it is still on the list and
   * dropped when it is not; with nothing tracked and autoscroll on, the
   * newest item is selected, and otherwise nothing is.
   */
  predicate SelectionRestored(before: View, after: View) {
    var id := before.selectedId;
    && (id.Some? && HasId(after.items, id.value) ==> after.selectedId == id && after.selected.Some?)
    && (id.Some? && !HasId(after.items, id.value) ==> after.selected.None? && after.selectedId.None?)
    && (id.None? && before.autoscroll && |after.items| > 0 ==> after.selected == Some(0))
    && (id.None? && (!before.autoscroll || |after.items| == 0) ==> after.selected.None? && after.selectedId.None?)
  }

  /** The scroll offset after a filter: the old one, but not past the last row. */
  function FilterScroll(prev: nat, total: nat): (s: nat)
    ensures s <= SatSub(total, 1)
    ensures prev <= SatSub(total, 1) ==> s == prev
    ensures total > 0 && prev > total - 1 ==> s == total - 1
    ensures total == 0 ==> s == 0
  {
    if total == 0 then 0 else if prev < total - 1 then prev else total - 1
  }

  /** `apply_filter`: rebuild with the current filter text, restore the selection, clamp the scroll. */
  function ApplyFilter(app: AppState, contains: Contains): (r: AppState)
    ensures r.raw == app.raw && r.filter == app.filter && r.nextId == app.nextId
    ensures r.view.items == Rebuild(app.raw, app.filter, contains)
    ensures Synced(r.view) && ScrollInRange(r.view) && Tracked(r.view)
    ensures r.view.scroll == FilterScroll(app.view.scroll, |r.view.items|)
    ensures SelectionRestored(app.view, r.view)
  {
    var shown := Rebuild(app.raw, app.filter, contains);
    var view := RestoreSelection(shown, app.view.selectedId, app.view.autoscroll, app.view.scroll);
    app.(view := view.(scroll := FilterScroll(app.view.scroll, |shown|)))
  }

  /** A filter that drops the selected record clears both the selection and the tracked identity. */
  lemma FilterDroppingSelectionClears(app: AppState, contains: Contains)
    requires app.view.selectedId.Some?
    requires !HasId(Rebuild(app.raw, app.filter, contains), app.view.selectedId.value)
    ensures ApplyFilter(app, contains).view.selected.None?
    ensures ApplyFilter(app, contains).view.selectedId.None?
  {
  }

  // ---------------------------------------------------------------------------
  // Polling the file
  // ---------------------------------------------------------------------------

  /** Where the next read starts: at the old length, or at 0 when the file shrank (truncated or rotated). */
  function ReadStart(lastLen: nat, curLen: nat): (start: nat)
    ensures curLen < lastLen ==> start == 0
    ensures curLen >= lastLen ==> start == lastLen
  {
    if curLen < lastLen then 0 else lastLen
  }

  /** The poll finds the file changed and grown past the read offset, and its new bytes could be read. */
  predicate ReadsDelta(app: AppState, stat: Option<MetaSnap>, delta: Option<string>) {
    && stat.Some? && HasChanged(app.prevMeta, stat.value)
    && stat.value.len > ReadStart(app.lastLen, stat.value.len)
    && delta.Some?
  }

  /**
   * `update_logs`. `stat` is the file's metadata, `None` when `stat` fails;
   * `delta` is the text of bytes `[ReadStart(..), stat.len)` decoded, `None`
   * when the file cannot be opened or mapped. The text is parsed with
   * `ProcessDelta` and the items appended.
   */
  function UpdateLogs(app: AppState, stat: Option<MetaSnap>, delta: Option<string>, contains: Contains): (r: AppState)
    ensures stat.None? || !HasChanged(app.prevMeta, stat.value) ==> r == app
    ensures stat.Some? && HasChanged(app.prevMeta, stat.value) ==>
      r.prevMeta == stat && r.lastLen == stat.value.len
    ensures ReadsDelta(app, stat, delta) ==>
      r.raw == app.raw + Stamp(ProcessDelta(delta.value), app.nextId)
    ensures !ReadsDelta(app, stat, delta) ==>
      r.raw == app.raw && r.view == app.view && r.nextId == app.nextId
  {
    match stat
    case None => app
    case Some(cur) =>
      if !HasChanged(app.prevMeta, cur) then app
      else
        var start := ReadStart(app.lastLen, cur.len);
        var read :=
          if cur.len > start then
            match delta
            case Some(text) => Append(app, ProcessDelta(text), contains).(lastLen := cur.len)
            case None => app.(lastLen := cur.len)
          else app.(lastLen := start);
        read.(prevMeta := Some(cur))
  }

  /**
   * With autoscroll off, an append leaves the same item on the top row when
   * the offset did not have to be clamped: new items go above it.
   */
  lemma AppendKeepsTopRow(app: AppState, items: seq<LogItem>, contains: Contains)
    requires app.view.items == Rebuild(app.raw, app.filter, contains)
    requires !app.view.autoscroll && app.view.scroll < |app.view.items|
    ensures
      var r := Append(app, items, contains);
      var before := app.view.items;
      var after := r.view.items;
      && r.view.scroll < |after|
      && after[ToUnderlyingIndex(|after|, r.view.scroll)]
         == before[ToUnderlyingIndex(|before|, app.view.scroll)]
  {
    var extra := Stamp(items, app.nextId);
    RebuildAppend(app.raw, extra, app.filter, contains);
    var before := app.view.items;
    var after := Append(app, items, contains).view.items;
    assert after == before + Rebuild(extra, app.filter, contains);
  }

  // ---------------------------------------------------------------------------
  // Keeping the selection in view
  // ---------------------------------------------------------------------------

  /**
   * `ensure_selection_visible`. `height` is the number of rows of the LOGS
   * panel's content area, `None` before the panel was first drawn. When the
   * selection leaves the window (less a one-row margin when the window has
   * more than two rows), the window moves just far enough; the offset is then
   * clamped to the last row.
   */
  function EnsureSelectionVisible(v: View, height: Option<nat>): (r: View)
    ensures r == v.(scroll := r.scroll)
    ensures v.selected.None? || height.None? || height.value == 0 ==> r == v
    ensures v.selected.Some? && height.Some? && height.value > 0 ==> r.scroll <= SatSub(|v.items|, 1)
    ensures v.selected.Some? && height.Some? && height.value > 0 && v.selected.value < |v.items| ==>
      r.scroll <= v.selected.value < r.scroll + height.value
    ensures v.selected.Some? && height.Some? && height.value > 2 && v.selected.value < |v.items| ==>
      (r.scroll == 0 || r.scroll < v.selected.value) && v.selected.value + 2 <= r.scroll + height.value
    ensures v.selected.Some? && height.Some? && height.value > 0 && v.selected.value < |v.items| ==>
      var sel := v.selected.value;
      var pad := if height.value > 2 then 1 else 0;
      && (r.scroll < v.scroll ==> r.scroll + pad == sel || (r.scroll == 0 && sel < pad))
      && (r.scroll > v.scroll ==> r.scroll + height.value == sel + pad + 1 || r.scroll == SatSub(|v.items|, 1))
  {
    match (v.selected, height)
    case (Some(sel), Some(h)) =>
      if h == 0 then v
      else
        var pad := if h > 2 then 1 else 0;
        var viewStart := v.scroll;
        var viewEnd := v.scroll + SatSub(h, 1);
        var wanted :=
          if sel < viewStart + pad then SatSub(sel, pad)
          else if sel > SatSub(viewEnd, pad) then SatSub(sel + pad + 1, h)
          else v.scroll;
        var maxTop := SatSub(|v.items|, 1);
        v.(scroll := if wanted < maxTop then wanted else maxTop)
    case _ => v
  }

  /** A selection already inside the window, margins included, does not move the window. */
  lemma VisibleSelectionKeepsScroll(v: View, h: nat)
    requires v.selected.Some? && v.selected.value < |v.items| && h > 0
    requires var pad := if h > 2 then 1 else 0;
      v.scroll + pad <= v.selected.value && v.selected.value + pad <= v.scroll + h - 1
    ensures EnsureSelectionVisible(v, Some(h)) == v
  {
  }

  /** `update_logs_scrollbar_state`: clamp the offset to the last row. */
  function ClampScroll(v: View): (r: View)
    ensures r == v.(scroll := r.scroll)
    ensures ScrollInRange(r)
    ensures ScrollInRange(v) ==> r == v
    ensures !ScrollInRange(v) ==> r.scroll == SatSub(|v.items|, 1)
  {
    var maxTop := SatSub(|v.items|, 1);
    v.(scroll := if v.scroll < maxTop then v.scroll else maxTop)
  }

  /** The selection moves bound to keys and to `handle_log_item_scrolling`. */
  datatype Move = NextCircular | PreviousCircular | Next | Previous | First | Last

  function MoveSelection(len: nat, sel: Option<nat>, m: Move): (r: Option<nat>)
    ensures InRange(len, sel) ==> InRange(len, r)
  {
    match m
    case NextCircular => SelectNextCircular(len, sel)
    case PreviousCircular => SelectPreviousCircular(len, sel)
    case Next => SelectNextTraditional(len, sel)
    case Previous => SelectPreviousTraditional(len, sel)
    case First => SelectFirst(len)
    case Last => SelectLast(len)
  }

  /**
   * `handle_log_item_scrolling` and the `g`/`G` keys: move the selection,
   * track its identity, bring it into view and clamp the offset.
   */
  function Navigate(v: View, m: Move, height: Option<nat>): (r: View)
    ensures r.items == v.items && r.autoscroll == v.autoscroll
    ensures r.selected == MoveSelection(|v.items|, v.selected, m)
    ensures InRange(|v.items|, v.selected) ==> Synced(r)
    ensures ScrollInRange(r)
    ensures InRange(|v.items|, v.selected) && r.selected.Some? && height.Some? && height.value > 0 ==>
      r.scroll <= r.selected.value < r.scroll + height.value
  {
    var moved := v.(selected := MoveSelection(|v.items|, v.selected, m));
    ClampScroll(EnsureSelectionVisible(UpdateSelectedUuid(moved), height))
  }

  // ---------------------------------------------------------------------------
  // Rendering the LOGS panel, view scrolling, autoscroll
  // ---------------------------------------------------------------------------

  /** The items on rows `scroll ..` of a panel `height` rows high, newest first. */
  function VisibleItems(items: seq<Record>, scroll: nat, height: nat): (rows: seq<Record>)
    ensures scroll <= |items| ==> |rows| == if scroll + height < |items| then height else |items| - scroll
    ensures forall k :: 0 <= k < |rows| ==> scroll + k < |items| && rows[k] == items[|items| - 1 - (scroll + k)]
  {
    var n := |items|;
    var end := if scroll + height < n then scroll + height else n;
    var start := if scroll < end then scroll else end;
    var rows := seq(end - start, k requires 0 <= k < end - start => items[ToUnderlyingIndex(n, start + k)]);
    forall k | 0 <= k < |rows| ensures scroll + k < n && rows[k] == items[n - 1 - (scroll + k)] {
      assert start == scroll && start + k < n;
      assert rows[k] == items[ToUnderlyingIndex(n, start + k)];
    }
    rows
  }

  /** At offset 0 the top row shows the newest item. */
  lemma NewestOnTop(items: seq<Record>, height: nat)
    requires |items| > 0 && height > 0
    ensures VisibleItems(items, 0, height)[0] == items[|items| - 1]
  {
  }

  /** A left click on screen row `row` of a panel whose content starts at row `top`. */
  datatype Click = Click(row: nat, top: nat)

  /**
   * The state changes of `render_logs`: clamp the offset, select the clicked
   * row if it shows an item, set autoscroll from the offset, and track the
   * identity of a newly clicked item.
   */
  function RenderLogs(v: View, click: Option<Click>): (r: View)
    ensures r.items == v.items && ScrollInRange(r)
    ensures ScrollInRange(v) ==> r.scroll == v.scroll
    ensures !ScrollInRange(v) ==> r.scroll == SatSub(|v.items|, 1)
    ensures r.autoscroll <==> r.scroll == 0
    ensures click.Some? && r.scroll + SatSub(click.value.row, click.value.top) < |v.items| ==>
      r.selected == Some(r.scroll + SatSub(click.value.row, click.value.top)) && Synced(r)
    ensures !(click.Some? && r.scroll + SatSub(click.value.row, click.value.top) < |v.items|) ==>
      r.selected == v.selected && r.selectedId == v.selectedId
    ensures Synced(v) ==> Synced(r)
  {
    var clamped := ClampScroll(v);
    var clicked :=
      match click
      case Some(c) =>
        var exact := clamped.scroll + SatSub(c.row, c.top);
        if exact < |v.items| then UpdateSelectedUuid(clamped.(selected := Some(exact))) else clamped
      case None => clamped;
    UpdateAutoscroll(clicked)
  }

  /** `update_autoscroll_state`: autoscroll is on exactly when the view is at the top. */
  function UpdateAutoscroll(v: View): (r: View)
    ensures r == v.(autoscroll := r.autoscroll)
    ensures r.autoscroll <==> v.scroll == 0
  {
    v.(autoscroll := v.scroll == 0)
  }

  /**
   * `handle_logs_view_scrolling`: move the window one row without touching the
   * selection; down stops at the last row, up stops at 0. The panel's line
   * count is the number of displayed items.
   */
  function ViewScroll(v: View, down: bool): (r: View)
    ensures r == v.(scroll := r.scroll)
    ensures ScrollInRange(v) ==> ScrollInRange(r)
    ensures down && v.scroll < SatSub(|v.items|, 1) ==> r.scroll == v.scroll + 1
    ensures down && v.scroll >= SatSub(|v.items|, 1) ==> r.scroll == v.scroll
    ensures !down ==> r.scroll == SatSub(v.scroll, 1)
  {
    var lines := |v.items|;
    if down then
      if v.scroll >= SatSub(lines, 1) then v else v.(scroll := v.scroll + 1)
    else v.(scroll := SatSub(v.scroll, 1))
  }

  /** Scrolling down then up, or up then down, returns to the same offset away from the ends. */
  lemma ViewScrollRoundTrip(v: View)
    ensures v.scroll < SatSub(|v.items|, 1) ==> ViewScroll(ViewScroll(v, true), false) == v
    ensures 0 < v.scroll <= SatSub(|v.items|, 1) ==> ViewScroll(ViewScroll(v, false), true) == v
  {
  }

  // ---------------------------------------------------------------------------
  // Clearing and leaving filter mode
  // ---------------------------------------------------------------------------

  /**
   * `clear_logs` as written: drop every item and the filter; the tracked
   * identity and the offset are left as they were.
   */
  function ClearLogsAsWritten(app: AppState): (r: AppState)
    ensures r.raw == [] && r.filter == [] && r.view.items == [] && r.view.selected.None?
    ensures r.view.selectedId == app.view.selectedId && r.view.scroll == app.view.scroll
    ensures Synced(r.view)
  {
    app.(raw := [], filter := [], view := app.view.(items := [], selected := None))
  }

  /**
   * After clearing as written, the stale identity sends the next append down
   * the restore-by-identity branch, which finds nothing: with autoscroll on,
   * the newest item is not selected, although a state tracking nothing would
   * select it.
   */
  lemma ClearLogsAsWrittenSkipsAutoselect()
    ensures
      var contains := (i: LogItem, f: string) => i.content == f;
      var app := AppState([Record(0, LogItem("", "a"))], "",
                          View([Record(0, LogItem("", "a"))], Some(0), Some(0), 0, true), 0, None, 1);
      var c := ClearLogsAsWritten(app);
      var rendered := c.(view := RenderLogs(c.view, None));
      && Good(app, contains)
      && rendered.view.autoscroll
      && Append(rendered, [LogItem("", "b")], contains).view.selected.None?
      && Append(rendered.(view := rendered.view.(selectedId := None)), [LogItem("", "b")], contains).view.selected == Some(0)
  {
    var contains := (i: LogItem, f: string) => i.content == f;
    var app := AppState([Record(0, LogItem("", "a"))], "",
                        View([Record(0, LogItem("", "a"))], Some(0), Some(0), 0, true), 0, None, 1);
    assert app.view.items[0].id == 0;
    assert HasId(app.view.items, 0);
    var c := ClearLogsAsWritten(app);
    var rendered := c.(view := RenderLogs(c.view, None));
    var added := Append(rendered, [LogItem("", "b")], contains);
    assert added.view.items == [Record(1, LogItem("", "b"))];
    assert !HasId(added.view.items, 0);
  }

  /** `clear_logs` with the tracked identity cleared too, as an empty list has nothing to track. */
  function ClearLogs(app: AppState): (r: AppState)
    ensures r.raw == [] && r.filter == [] && r.view.items == []
    ensures r.view.selected.None? && r.view.selectedId.None? && r.view.scroll == app.view.scroll
    ensures Synced(r.view) && Tracked(r.view)
  {
    app.(raw := [], filter := [], view := app.view.(items := [], selected := None, selectedId := None))
  }

  /**
   * After the corrected clear, the render that follows turns autoscroll back
   * on, and the next append of new items selects the newest one.
   */
  lemma ClearLogsThenAppendSelectsNewest(app: AppState, click: Option<Click>, items: seq<LogItem>, contains: Contains)
    requires |items| > 0
    ensures
      var c := ClearLogs(app);
      var rendered := c.(view := RenderLogs(c.view, click));
      var r := Append(rendered, items, contains);
      rendered.view.autoscroll && r.view.selected == Some(0) && Synced(r.view)
  {
    var c := ClearLogs(app);
    var rendered := c.(view := RenderLogs(c.view, click));
    assert rendered.view.scroll == 0;
    assert Rebuild(Stamp(items, app.nextId), [], contains) == Stamp(items, app.nextId);
    assert c.raw + Stamp(items, app.nextId) == Stamp(items, app.nextId);
  }

  /** The keys that edit the filter text while filter mode is open. */
  datatype FilterKey =
    | OpenFilter     // `/`: enter filter mode with an empty text
    | Typed(c: char) // a printable character is appended
    | Erase          // Backspace drops the last character

  /** The filter-mode key handlers: only the text changes; the list is not rebuilt until Enter. */
  function EditFilter(app: AppState, key: FilterKey): (r: AppState)
    ensures r == app.(filter := r.filter)
    ensures key.OpenFilter? ==> r.filter == []
    ensures key.Typed? ==> r.filter == app.filter + [key.c]
    ensures key.Erase? && |app.filter| > 0 ==> r.filter + [app.filter[|app.filter| - 1]] == app.filter
    ensures key.Erase? && |app.filter| == 0 ==> r == app
  {
    match key
    case OpenFilter => app.(filter := [])
    case Typed(c) => app.(filter := app.filter + [c])
    case Erase => if |app.filter| == 0 then app else app.(filter := app.filter[..|app.filter| - 1])
  }

  /** A sequence of filter-mode keys, handled in order. */
  function EditFilters(app: AppState, keys: seq<FilterKey>): (r: AppState)
    ensures r == app.(filter := r.filter)
    decreases |keys|
  {
    if |keys| == 0 then app else EditFilters(EditFilter(app, keys[0]), keys[1..])
  }

  /** Backspace undoes a typed character. */
  lemma TypedThenErase(app: AppState, c: char)
    ensures EditFilter(EditFilter(app, Typed(c)), Erase) == app
  {
    assert (app.filter + [c])[..|app.filter|] == app.filter;
  }

  /**
   * `exit_filter_mode` as written: show every raw item and select the newest,
   * without updating the tracked identity.
   */
  function ExitFilterModeAsWritten(app: AppState): (r: AppState)
    ensures r.filter == [] && r.view.items == app.raw
    ensures r.view.selected == SelectFirst(|app.raw|)
    ensures r.view.selectedId == app.view.selectedId
  {
    app.(filter := [], view := app.view.(items := app.raw, selected := SelectFirst(|app.raw|)))
  }

  /**
   * Leaving filter mode loses track of a selection made in the filtered list:
   * the list filtered by "a" shows the older of two records, selected; after
   * `/` and Esc the newest record is highlighted while the older one's
   * identity is still tracked.
   */
  lemma ExitFilterModeLosesSync()
    ensures
      var contains := (i: LogItem, f: string) => i.content == f;
      var a := Record(0, LogItem("", "a"));
      var b := Record(1, LogItem("", "b"));
      var app := AppState([a, b], "a", View([a], Some(0), Some(0), 0, true), 0, None, 2);
      Good(app, contains) && !Synced(ExitFilterModeAsWritten(EditFilter(app, OpenFilter)).view)
  {
    var contains := (i: LogItem, f: string) => i.content == f;
    var a := Record(0, LogItem("", "a"));
    var b := Record(1, LogItem("", "b"));
    assert Filter([b], "a", contains) == [];
    assert Filter([a, b], "a", contains) == [a];
    assert HasId([a], 0);
  }

  /** `exit_filter_mode` with the selected identity updated, as every other `select_first` caller does. */
  function ExitFilterMode(app: AppState): (r: AppState)
    ensures r.filter == [] && r.view.items == app.raw
    ensures r.view.selected == SelectFirst(|app.raw|)
    ensures Synced(r.view) && Tracked(r.view)
  {
    var shown := app.view.(items := app.raw, selected := SelectFirst(|app.raw|));
    app.(filter := [], view := UpdateSelectedUuid(shown))
  }

  // ---------------------------------------------------------------------------
  // Invariants of the engine
  // ---------------------------------------------------------------------------

  /** Every identity handed out so far is below the counter and no two records share one. */
  predicate IdsFresh(app: AppState) {
    && DistinctIds(app.raw)
    && forall k :: 0 <= k < |app.raw| ==> app.raw[k].id < app.nextId
  }

  /**
   * What holds after every event, filter mode included: the selection and
   * its identity agree, a tracked identity is on the list, the offset is in
   * range, and the list shows raw records in order.
   */
  predicate Consistent(app: AppState) {
    && Synced(app.view)
    && Tracked(app.view)
    && ScrollInRange(app.view)
    && IsSubsequence(app.view.items, app.raw)
    && IdsFresh(app)
  }

  /**
   * What holds outside filter mode: in addition, the list is the raw items
   * rebuilt with the filter text. While filter mode is open the text is
   * edited without a rebuild, so only `Consistent` holds.
   */
  predicate Good(app: AppState, contains: Contains) {
    && Consistent(app)
    && app.view.items == Rebuild(app.raw, app.filter, contains)
  }

  lemma InitialIsGood(contains: Contains)
    ensures Good(Initial(), contains)
  {
  }

  lemma StampKeepsIdsFresh(app: AppState, items: seq<LogItem>)
    requires IdsFresh(app)
    ensures IdsFresh(app.(raw := app.raw + Stamp(items, app.nextId), nextId := app.nextId + |items|))
  {
    var raw := app.raw + Stamp(items, app.nextId);
    forall a, b | 0 <= a < b < |raw| ensures raw[a].id != raw[b].id {
      if b >= |app.raw| {
        assert raw[b].id == app.nextId + (b - |app.raw|);
      }
    }
  }

  /**
   * Polling the file keeps the engine consistent and, outside filter mode,
   * good; a poll that reads new items rebuilds the list with the current
   * filter text, so it is good afterwards even in filter mode.
   */
  lemma UpdateLogsKeepsGood(app: AppState, stat: Option<MetaSnap>, delta: Option<string>, contains: Contains)
    requires Consistent(app)
    ensures Consistent(UpdateLogs(app, stat, delta, contains))
    ensures Good(app, contains) ==> Good(UpdateLogs(app, stat, delta, contains), contains)
    ensures ReadsDelta(app, stat, delta) ==> Good(UpdateLogs(app, stat, delta, contains), contains)
  {
    if ReadsDelta(app, stat, delta) {
      StampKeepsIdsFresh(app, ProcessDelta(delta.value));
    }
  }

  /** Editing the filter text keeps the engine consistent. */
  lemma EditFiltersKeepConsistent(app: AppState, keys: seq<FilterKey>)
    requires Consistent(app)
    ensures Consistent(EditFilters(app, keys))
  {
  }

  /** A subsequence is no longer than the sequence it is taken from. */
  lemma {:induction false} SubsequenceIsShorter<T>(a: seq<T>, b: seq<T>)
    requires IsSubsequence(a, b)
    ensures |a| <= |b|
    decreases |b|
  {
    if |a| > 0 {
      if a[0] == b[0] {
        SubsequenceIsShorter(a[1..], b[1..]);
      } else {
        SubsequenceIsShorter(a, b[1..]);
      }
    }
  }

  /** The offset of a consistent engine is also in range for the whole raw list. */
  lemma ConsistentScrollFitsRaw(app: AppState)
    requires Consistent(app)
    ensures app.view.scroll <= SatSub(|app.raw|, 1)
  {
    SubsequenceIsShorter(app.view.items, app.raw);
  }

  /** Applying the filter (Enter), whatever text filter mode left behind, makes the engine good. */
  lemma ApplyFilterKeepsGood(app: AppState, contains: Contains)
    requires IdsFresh(app)
    ensures Good(ApplyFilter(app, contains), contains)
  {
  }

  /** Moving the selection, rendering and view scrolling keep the engine's invariants. */
  lemma ViewStepsKeepGood(app: AppState, contains: Contains, m: Move, height: Option<nat>, click: Option<Click>, down: bool)
    requires Good(app, contains)
    ensures Good(app.(view := Navigate(app.view, m, height)), contains)
    ensures Good(app.(view := RenderLogs(app.view, click)), contains)
    ensures Good(app.(view := ViewScroll(app.view, down)), contains)
  {
  }

  /** Leaving filter mode (corrected, Esc), whatever text filter mode left behind, makes the engine good. */
  lemma ExitFilterModeKeepsGood(app: AppState, contains: Contains)
    requires IdsFresh(app) && app.view.scroll <= SatSub(|app.raw|, 1)
    ensures Good(ExitFilterMode(app), contains)
  {
    SubsequenceReflexive(app.raw);
  }

  /**
   * A whole filter-mode session, from a consistent engine: `/`, any edits,
   * then Enter or Esc, ends in a good engine.
   */
  lemma FilterSessionEndsGood(app: AppState, keys: seq<FilterKey>, enter: bool, contains: Contains)
    requires Consistent(app)
    ensures
      var edited := EditFilters(EditFilter(app, OpenFilter), keys);
      Good(if enter then ApplyFilter(edited, contains) else ExitFilterMode(edited), contains)
  {
    var edited := EditFilters(EditFilter(app, OpenFilter), keys);
    EditFiltersKeepConsistent(EditFilter(app, OpenFilter), keys);
    if enter {
      ApplyFilterKeepsGood(edited, contains);
    } else {
      ConsistentScrollFitsRaw(edited);
      ExitFilterModeKeepsGood(edited, contains);
    }
  }

  /**
   * Clearing (corrected) leaves the offset where it was, so the next render's
   * clamp is what brings the engine back to its invariants.
   */
  lemma ClearLogsThenRenderIsGood(app: AppState, contains: Contains, click: Option<Click>)
    requires Good(app, contains)
    ensures var c := ClearLogs(app); Good(c.(view := RenderLogs(c.view, click)), contains)
  {
  }
}

=== FILE: content_lines.dfy ===
/**
 * Hard wrapping of a log item's text for the details panel
 * (src/content_line_maker.rs). Each `'\n'` ends the current line and every
 * other character is appended to it; a line is emitted as soon as it is
 * `width` long. A styled ratatui `Line` is modelled by its text.
 *
 * The source measures "`width` long" with `String::len`, the UTF-8 byte
 * length. `WrapContentAsWritten` keeps that test; `WrapContent` counts
 * characters, which is what a width in terminal cells evidently asks for. The
 * two agree on ASCII text (`AsWrittenAgreesOnAscii`) and disagree on `"éé"`
 * (`AsWrittenOverflowsOnMultibyte`).
 */
module ContentLines {
  import opened Wrappers

  /** Bytes `c` takes in UTF-8. */
  function Utf8Len(c: char): nat {
    var n := c as int;
    if n < 0x80 then 1 else if n < 0x800 then 2 else if n < 0x10000 then 3 else 4
  }

  /** `String::len`: the UTF-8 byte length. */
  function ByteLen(s: string): (n: nat)
    ensures n >= |s|
  {
    if |s| == 0 then 0 else ByteLen(s[..|s| - 1]) + Utf8Len(s[|s| - 1])
  }

  predicate IsAscii(s: string) {
    forall k :: 0 <= k < |s| ==> s[k] as int < 0x80
  }

  predicate NoNewline(s: string) {
    forall k :: 0 <= k < |s| ==> s[k] != '\n'
  }

  lemma {:induction false} AsciiByteLen(s: string)
    requires IsAscii(s)
    ensures ByteLen(s) == |s|
  {
    if |s| > 0 {
      AsciiByteLen(s[..|s| - 1]);
    }
  }

  // ---------------------------------------------------------------------------
  // The loop as written and as corrected
  // ---------------------------------------------------------------------------

  /**
   * The `for ch in content.chars()` loop from `rest` on, with the line being
   * built in `cur` and the finished lines in `acc`; the line is full when its
   * UTF-8 byte length equals `width`.
   */
  function LoopAsWritten(rest: string, width: nat, cur: string, acc: seq<string>): seq<string>
    decreases |rest|
  {
    if |rest| == 0 then (if |cur| > 0 then acc + [cur] else acc)
    else if rest[0] == '\n' then LoopAsWritten(rest[1..], width, [], acc + [cur])
    else
      var line := cur + [rest[0]];
      if ByteLen(line) == width then LoopAsWritten(rest[1..], width, [], acc + [line])
      else LoopAsWritten(rest[1..], width, line, acc)
  }

  /** `wrap_content_to_lines` exactly as written. */
  function WrapContentAsWritten(content: string, width: nat): (lines: seq<string>)
    ensures width == 0 ==> lines == []
  {
    if width == 0 then [] else LoopAsWritten(content, width, [], [])
  }

  /** The same loop with the line full when it holds `width` characters. */
  function Loop(rest: string, width: nat, cur: string, acc: seq<string>): seq<string>
    decreases |rest|
  {
    if |rest| == 0 then (if |cur| > 0 then acc + [cur] else acc)
    else if rest[0] == '\n' then Loop(rest[1..], width, [], acc + [cur])
    else
      var line := cur + [rest[0]];
      if |line| == width then Loop(rest[1..], width, [], acc + [line])
      else Loop(rest[1..], width, line, acc)
  }

  /** `wrap_content_to_lines` with the width counted in characters. */
  function WrapContent(content: string, width: nat): (lines: seq<string>)
    ensures width == 0 ==> lines == []
  {
    if width == 0 then [] else Loop(content, width, [], [])
  }

  // ---------------------------------------------------------------------------
  // Reference definition: split at newlines, then cut each piece into chunks
  // ---------------------------------------------------------------------------

  /** Position of the first `'\n'` in `s`. */
  function FirstNewline(s: string): (r: Option<nat>)
    ensures r.Some? ==> r.value < |s| && s[r.value] == '\n' && NoNewline(s[..r.value])
    ensures r.None? ==> NoNewline(s)
  {
    if |s| == 0 then None
    else if s[0] == '\n' then Some(0)
    else
      var r := FirstNewline(s[1..]);
      if r.Some? then
        assert s[..r.value + 1] == [s[0]] + s[1..][..r.value];
        Some(r.value + 1)
      else None
  }

  /** A piece ended by `'\n'`: full chunks of `width`, then the rest, which may be empty. */
  function Closed(seg: string, width: nat): (lines: seq<string>)
    requires width > 0
    ensures |lines| > 0
    decreases |seg|
  {
    if |seg| < width then [seg] else [seg[..width]] + Closed(seg[width..], width)
  }

  /** The last piece: full chunks of `width`, then the rest if it is not empty. */
  function Open(seg: string, width: nat): seq<string>
    requires width > 0
    decreases |seg|
  {
    if |seg| == 0 then []
    else if |seg| < width then [seg]
    else [seg[..width]] + Open(seg[width..], width)
  }

  /** The lines of `s`: every piece before a newline closed, the last one open. */
  function WrapRef(s: string, width: nat): seq<string>
    requires width > 0
    decreases |s|
  {
    match FirstNewline(s)
    case None => Open(s, width)
    case Some(i) => Closed(s[..i], width) + WrapRef(s[i + 1..], width)
  }

  lemma ClosedFullHead(x: string, z: string, width: nat)
    requires width > 0 && |x| == width
    ensures Closed(x + z, width) == [x] + Closed(z, width)
  {
    assert (x + z)[..width] == x && (x + z)[width..] == z;
  }

  lemma OpenFullHead(x: string, z: string, width: nat)
    requires width > 0 && |x| == width
    ensures Open(x + z, width) == [x] + Open(z, width)
  {
    assert (x + z)[..width] == x && (x + z)[width..] == z;
  }

  /** A full-width, newline-free head is a line of its own. */
  lemma FullHeadIsOneLine(x: string, y: string, width: nat)
    requires width > 0 && |x| == width && NoNewline(x)
    ensures WrapRef(x + y, width) == [x] + WrapRef(y, width)
  {
    match FirstNewline(y)
    case None =>
      assert NoNewline(x + y);
      OpenFullHead(x, y, width);
    case Some(j) =>
      FullHeadBeforeNewline(x, y, width, j);
  }

  lemma FullHeadBeforeNewline(x: string, y: string, width: nat, j: nat)
    requires width > 0 && |x| == width && NoNewline(x)
    requires FirstNewline(y) == Some(j)
    ensures WrapRef(x + y, width) == [x] + WrapRef(y, width)
  {
    NewlineAfterHead(x, y, j);
    WrapRefAtNewline(x + y, |x| + j, width);
    WrapRefAtNewline(y, j, width);
    ClosedFullHead(x, y[..j], width);
    AppendAssoc([x], Closed(y[..j], width), WrapRef(y[j + 1..], width));
  }

  /** The reference lines of text whose first newline is at `i`. */
  lemma WrapRefAtNewline(s: string, i: nat, width: nat)
    requires width > 0 && FirstNewline(s) == Some(i)
    ensures i < |s| && WrapRef(s, width) == Closed(s[..i], width) + WrapRef(s[i + 1..], width)
  {
  }

  lemma AppendAssoc<T>(a: seq<T>, b: seq<T>, c: seq<T>)
    ensures a + b + c == a + (b + c)
  {
  }

  /** Where the first newline of `x + y` sits when `x` holds none. */
  lemma NewlineAfterHead(x: string, y: string, j: nat)
    requires NoNewline(x) && FirstNewline(y) == Some(j)
    ensures FirstNewline(x + y) == Some(|x| + j)
    ensures (x + y)[..|x| + j] == x + y[..j]
    ensures (x + y)[|x| + j + 1..] == y[j + 1..]
  {
    var s := x + y;
    assert s[..|x| + j] == x + y[..j];
    FirstNewlineUnique(s, |x| + j);
  }

  /** The first newline is the one with none before it. */
  lemma {:induction false} FirstNewlineUnique(s: string, i: nat)
    requires i < |s| && s[i] == '\n' && NoNewline(s[..i])
    ensures FirstNewline(s) == Some(i)
  {
    if i > 0 {
      assert s[0] == s[..i][0];
      assert s[1..][..i - 1] == s[..i][1..];
      FirstNewlineUnique(s[1..], i - 1);
    }
  }

  /** The loop from any point yields the finished lines, then the reference lines of what is left. */
  lemma {:induction false} LoopIsWrapRef(rest: string, width: nat, cur: string, acc: seq<string>)
    requires width > 0 && |cur| < width && NoNewline(cur)
    ensures Loop(rest, width, cur, acc) == acc + WrapRef(cur + rest, width)
    decreases |rest|
  {
    if |rest| == 0 {
      assert cur + rest == cur;
      assert FirstNewline(cur).None?;
    } else if rest[0] == '\n' {
      LoopIsWrapRef(rest[1..], width, [], acc + [cur]);
      assert [] + rest[1..] == rest[1..];
      NewlineStep(rest, width, cur, acc);
    } else {
      var line := cur + [rest[0]];
      if |line| == width {
        LoopIsWrapRef(rest[1..], width, [], acc + [line]);
        assert [] + rest[1..] == rest[1..];
        FullLineStep(rest, width, cur, acc);
      } else {
        LoopIsWrapRef(rest[1..], width, line, acc);
        assert cur + rest == line + rest[1..];
      }
    }
  }

  /** A newline after the pending line closes it. */
  lemma NewlineStep(rest: string, width: nat, cur: string, acc: seq<string>)
    requires width > 0 && |cur| < width && NoNewline(cur)
    requires |rest| > 0 && rest[0] == '\n'
    ensures acc + WrapRef(cur + rest, width) == (acc + [cur]) + WrapRef(rest[1..], width)
  {
    var s := cur + rest;
    assert s[..|cur|] == cur;
    FirstNewlineUnique(s, |cur|);
    assert s[|cur| + 1..] == rest[1..];
  }

  /** A character that fills the pending line makes it a line of its own. */
  lemma FullLineStep(rest: string, width: nat, cur: string, acc: seq<string>)
    requires width > 0 && NoNewline(cur)
    requires |rest| > 0 && rest[0] != '\n' && |cur| + 1 == width
    ensures acc + WrapRef(cur + rest, width) == (acc + [cur + [rest[0]]]) + WrapRef(rest[1..], width)
  {
    var line := cur + [rest[0]];
    assert cur + rest == line + rest[1..];
    FullHeadIsOneLine(line, rest[1..], width);
  }

  /** The wrapped lines are the reference lines. */
  lemma WrapContentIsWrapRef(content: string, width: nat)
    requires width > 0
    ensures WrapContent(content, width) == WrapRef(content, width)
  {
    LoopIsWrapRef(content, width, [], []);
    assert [] + content == content;
  }

  // ---------------------------------------------------------------------------
  // Properties of the wrapped lines
  // ---------------------------------------------------------------------------

  /** The lines one after the other. */
  function Concat(lines: seq<string>): string {
    if |lines| == 0 then [] else lines[0] + Concat(lines[1..])
  }

  /** `s` with every `'\n'` removed. */
  function RemoveNewlines(s: string): (r: string)
    ensures NoNewline(r)
  {
    if |s| == 0 then []
    else if s[0] == '\n' then RemoveNewlines(s[1..])
    else [s[0]] + RemoveNewlines(s[1..])
  }

  lemma {:induction false} ConcatAppend(a: seq<string>, b: seq<string>)
    ensures Concat(a + b) == Concat(a) + Concat(b)
  {
    if |a| > 0 {
      assert (a + b)[1..] == a[1..] + b;
      ConcatAppend(a[1..], b);
    } else {
      assert a + b == b;
    }
  }

  lemma {:induction false} ConcatClosed(seg: string, width: nat)
    requires width > 0
    ensures Concat(Closed(seg, width)) == seg
    decreases |seg|
  {
    if |seg| >= width {
      ConcatClosed(seg[width..], width);
      assert Closed(seg, width)[1..] == Closed(seg[width..], width);
      assert seg == seg[..width] + seg[width..];
    }
  }

  lemma {:induction false} ConcatOpen(seg: string, width: nat)
    requires width > 0
    ensures Concat(Open(seg, width)) == seg
    decreases |seg|
  {
    if |seg| >= width {
      ConcatOpen(seg[width..], width);
      assert Open(seg, width)[1..] == Open(seg[width..], width);
      assert seg == seg[..width] + seg[width..];
    }
  }

  lemma {:induction false} RemoveNewlinesAppend(a: string, b: string)
    ensures RemoveNewlines(a + b) == RemoveNewlines(a) + RemoveNewlines(b)
  {
    if |a| > 0 {
      assert (a + b)[1..] == a[1..] + b;
      RemoveNewlinesAppend(a[1..], b);
    } else {
      assert a + b == b;
    }
  }

  lemma {:induction false} RemoveNewlinesOfNewlineFree(s: string)
    requires NoNewline(s)
    ensures RemoveNewlines(s) == s
  {
    if |s| > 0 {
      RemoveNewlinesOfNewlineFree(s[1..]);
    }
  }

  /** Nothing is lost or added: the lines, joined, are the content without its newlines. */
  lemma {:induction false} WrapRefKeepsText(s: string, width: nat)
    requires width > 0
    ensures Concat(WrapRef(s, width)) == RemoveNewlines(s)
    decreases |s|
  {
    match FirstNewline(s)
    case None =>
      ConcatOpen(s, width);
      RemoveNewlinesOfNewlineFree(s);
    case Some(i) =>
      WrapRefKeepsText(s[i + 1..], width);
      ConcatAppend(Closed(s[..i], width), WrapRef(s[i + 1..], width));
      ConcatClosed(s[..i], width);
      assert s == s[..i] + ([s[i]] + s[i + 1..]);
      RemoveNewlinesAppend(s[..i], [s[i]] + s[i + 1..]);
      RemoveNewlinesOfNewlineFree(s[..i]);
  }

  /** Every line is newline-free and at most `width` characters long. */
  predicate WellFormedLines(lines: seq<string>, width: nat) {
    forall k :: 0 <= k < |lines| ==> NoNewline(lines[k]) && |lines[k]| <= width
  }

  lemma {:induction false} ClosedWellFormed(seg: string, width: nat)
    requires width > 0 && NoNewline(seg)
    ensures WellFormedLines(Closed(seg, width), width)
    decreases |seg|
  {
    if |seg| >= width {
      ClosedWellFormed(seg[width..], width);
      assert Closed(seg, width)[1..] == Closed(seg[width..], width);
    }
  }

  lemma {:induction false} OpenWellFormed(seg: string, width: nat)
    requires width > 0 && NoNewline(seg)
    ensures WellFormedLines(Open(seg, width), width)
    decreases |seg|
  {
    if |seg| >= width {
      OpenWellFormed(seg[width..], width);
      assert Open(seg, width)[1..] == Open(seg[width..], width);
    }
  }

  lemma {:induction false} WrapRefWellFormed(s: string, width: nat)
    requires width > 0
    ensures WellFormedLines(WrapRef(s, width), width)
    decreases |s|
  {
    match FirstNewline(s)
    case None =>
      OpenWellFormed(s, width);
    case Some(i) =>
      WrapRefWellFormed(s[i + 1..], width);
      ClosedWellFormed(s[..i], width);
  }

  /**
   * The wrapped lines of any content: none when the width is 0 or the content
   * empty; otherwise newline-free, at most `width` characters each, and
   * together exactly the content's characters other than `'\n'`, in order.
   */
  lemma WrapContentProperties(content: string, width: nat)
    ensures width == 0 || |content| == 0 ==> WrapContent(content, width) == []
    ensures WellFormedLines(WrapContent(content, width), width)
    ensures width > 0 ==> Concat(WrapContent(content, width)) == RemoveNewlines(content)
  {
    if width > 0 {
      WrapContentIsWrapRef(content, width);
      WrapRefWellFormed(content, width);
      WrapRefKeepsText(content, width);
    }
  }

  /**
   * Newline-free content of length `L` fills `ceil(L / width)` lines (the
   * least `n` with `L <= n * width`), all but the last exactly `width`
   * characters long.
   */
  lemma {:induction false} OpenShape(seg: string, width: nat)
    requires width > 0
    ensures |Open(seg, width)| == 0 <==> |seg| == 0
    ensures |seg| <= |Open(seg, width)| * width
    ensures |seg| > 0 ==> (|Open(seg, width)| - 1) * width < |seg|
    ensures forall k :: 0 <= k < |Open(seg, width)| - 1 ==> |Open(seg, width)[k]| == width
    decreases |seg|
  {
    if |seg| >= width {
      OpenShape(seg[width..], width);
      var rest := Open(seg[width..], width);
      assert Open(seg, width) == [seg[..width]] + rest;
      assert (|rest| + 1) * width == |rest| * width + width;
      if |rest| > 0 {
        assert |rest| * width == (|rest| - 1) * width + width;
      }
    }
  }

  lemma NewlineFreeShape(content: string, width: nat)
    requires width > 0 && NoNewline(content)
    ensures |WrapContent(content, width)| == 0 <==> |content| == 0
    ensures |content| <= |WrapContent(content, width)| * width
    ensures |content| > 0 ==> (|WrapContent(content, width)| - 1) * width < |content|
    ensures forall k :: 0 <= k < |WrapContent(content, width)| - 1 ==> |WrapContent(content, width)[k]| == width
  {
    WrapContentIsWrapRef(content, width);
    assert FirstNewline(content).None?;
    OpenShape(content, width);
  }

  /** Each newline closes the current line, even an empty one: `"\n"` at the front is an empty line. */
  lemma NewlineClosesLine(y: string, width: nat)
    requires width > 0
    ensures WrapContent("\n" + y, width) == [""] + WrapContent(y, width)
  {
    var s := "\n" + y;
    FirstNewlineUnique(s, 0);
    assert s[1..] == y;
    WrapContentIsWrapRef(s, width);
    WrapContentIsWrapRef(y, width);
  }

  // ---------------------------------------------------------------------------
  // The byte-length test against the character-count test
  // ---------------------------------------------------------------------------

  lemma {:induction false} LoopsAgreeOnAscii(rest: string, width: nat, cur: string, acc: seq<string>)
    requires IsAscii(rest) && IsAscii(cur)
    ensures LoopAsWritten(rest, width, cur, acc) == Loop(rest, width, cur, acc)
    decreases |rest|
  {
    if |rest| > 0 {
      if rest[0] == '\n' {
        LoopsAgreeOnAscii(rest[1..], width, [], acc + [cur]);
      } else {
        var line := cur + [rest[0]];
        assert IsAscii(line);
        AsciiByteLen(line);
        LoopsAgreeOnAscii(rest[1..], width, [], acc + [line]);
        LoopsAgreeOnAscii(rest[1..], width, line, acc);
      }
    }
  }

  /** On ASCII content the byte-length test is the character-count test. */
  lemma AsWrittenAgreesOnAscii(content: string, width: nat)
    requires IsAscii(content)
    ensures WrapContentAsWritten(content, width) == WrapContent(content, width)
  {
    if width > 0 {
      LoopsAgreeOnAscii(content, width, [], []);
    }
  }

  /**
   * With two-byte characters the line length in bytes skips over the width:
   * `"éé"` at width 1 comes out as one line of two characters, where the
   * character-count version gives two lines of one.
   */
  lemma AsWrittenOverflowsOnMultibyte()
    ensures WrapContentAsWritten("éé", 1) == ["éé"]
    ensures WrapContent("éé", 1) == ["é", "é"]
  {
    var e: char := 0xE9 as char;
    assert ByteLen([e]) == 2;
    assert ByteLen([e, e]) == 4 by {
      assert [e, e][..1] == [e];
    }
    assert "éé" == [e, e];
    assert [e, e][1..] == [e];
    assert [] + [e] == [e];
    assert [e] + [e] == [e, e];
  }
}

=== FILE: file_finder.dfy ===
/**
 * Choosing the live log file in the log directory (src/file_finder.rs).
 * Reading the directory is I/O: the listing is an input, `None` when the
 * directory cannot be read, and each entry says whether it could be read, its
 * file name (when that name is valid UTF-8) and whether it is a regular file.
 */
module FileFinder {
  import opened Wrappers
  import opened Text

  datatype DirEntry =
    | Unreadable
    | Entry(name: Option<string>, isFile: bool)

  datatype FinderError = ReadDirFailed | NoLiveLogs

  const LogSuffix: string := ".log"

  /** `u32::MAX`. */
  const MaxU32: nat := 4294967295

  predicate EndsWithLog(name: string) {
    |name| >= |LogSuffix| && name[|name| - |LogSuffix|..] == LogSuffix
  }

  /** `str::rfind('.')`: the position of the last `.`, if any. */
  function LastDot(s: string): (r: Option<nat>)
    ensures r.Some? ==> r.value < |s| && s[r.value] == '.'
    ensures r.Some? ==> forall j :: r.value < j < |s| ==> s[j] != '.'
    ensures r.None? ==> forall j :: 0 <= j < |s| ==> s[j] != '.'
  {
    if |s| == 0 then None
    else if s[|s| - 1] == '.' then Some(|s| - 1)
    else LastDot(s[..|s| - 1])
  }

  predicate AllDigits(s: string) {
    forall k :: 0 <= k < |s| ==> IsDigit(s[k])
  }

  /** The number an ASCII digit string denotes. */
  function DigitsValue(s: string): nat
    requires AllDigits(s)
  {
    if |s| == 0 then 0
    else DigitsValue(s[..|s| - 1]) * 10 + (s[|s| - 1] as int - '0' as int)
  }

  /**
   * `str::parse::<u32>` succeeds: an optional `+`, then at least one ASCII
   * digit and nothing else, denoting at most `u32::MAX` (leading zeros allowed).
   */
  predicate ParsesAsU32(s: string) {
    var digits := if |s| > 0 && s[0] == '+' then s[1..] else s;
    |digits| > 0 && AllDigits(digits) && DigitsValue(digits) <= MaxU32
  }

  /** The name of a rotated log such as `app.1.log`: the base's part after its last `.` is a `u32`. */
  predicate IsRotatedName(name: string)
    requires EndsWithLog(name)
  {
    var base := name[..|name| - |LogSuffix|];
    match LastDot(base)
    case Some(dot) => ParsesAsU32(base[dot + 1..])
    case None => false
  }

  /** The closure passed to `filter_map`: the entry is a readable regular file with a live `.log` name. */
  predicate IsLiveLog(e: DirEntry) {
    && e.Entry? && e.isFile && e.name.Some?
    && EndsWithLog(e.name.value) && !IsRotatedName(e.name.value)
  }

  /** The names of the live logs, in listing order. */
  function LiveLogNames(entries: seq<DirEntry>): (names: seq<string>)
    ensures forall n :: n in names <==> exists k :: 0 <= k < |entries| && IsLiveLog(entries[k]) && entries[k].name.value == n
    ensures forall k :: 0 <= k < |entries| && IsLiveLog(entries[k]) ==> entries[k].name.value in names
  {
    if |entries| == 0 then []
    else
      var rest := LiveLogNames(entries[1..]);
      assert forall k :: 1 <= k < |entries| ==> entries[1..][k - 1] == entries[k];
      if IsLiveLog(entries[0]) then [entries[0].name.value] + rest else rest
  }

  /** Path order within one directory: code-point lexicographic order of the names, a prefix first. */
  predicate LexLe(a: string, b: string) {
    |a| == 0 || (|b| > 0 && (a[0] < b[0] || (a[0] == b[0] && LexLe(a[1..], b[1..]))))
  }

  lemma {:induction false} LexLeReflexive(a: string)
    ensures LexLe(a, a)
  {
    if |a| > 0 {
      LexLeReflexive(a[1..]);
    }
  }

  lemma {:induction false} LexLeTotal(a: string, b: string)
    ensures LexLe(a, b) || LexLe(b, a)
  {
    if |a| > 0 && |b| > 0 && a[0] == b[0] {
      LexLeTotal(a[1..], b[1..]);
    }
  }

  lemma {:induction false} LexLeTransitive(a: string, b: string, c: string)
    requires LexLe(a, b) && LexLe(b, c)
    ensures LexLe(a, c)
  {
    if |a| > 0 && |b| > 0 && |c| > 0 && a[0] == b[0] && b[0] == c[0] {
      LexLeTransitive(a[1..], b[1..], c[1..]);
    }
  }

  /** The last element after sorting: a greatest name of a non-empty list. */
  function MaxName(names: seq<string>): (r: string)
    requires |names| > 0
    ensures r in names
    ensures forall k :: 0 <= k < |names| ==> LexLe(names[k], r)
  {
    if |names| == 1 then
      LexLeReflexive(names[0]);
      names[0]
    else
      var m := MaxName(names[1..]);
      forall k | 1 <= k < |names| ensures LexLe(names[k], m) {
        assert names[k] == names[1..][k - 1];
      }
      if LexLe(m, names[0]) then
        forall k | 1 <= k < |names| ensures LexLe(names[k], names[0]) {
          LexLeTransitive(names[k], m, names[0]);
        }
        LexLeReflexive(names[0]);
        names[0]
      else
        LexLeTotal(m, names[0]);
        m
  }

  /**
   * `find_latest_live_log`: the greatest live log name, or an error when the
   * directory cannot be read or holds no live log.
   */
  function FindLatestLiveLog(listing: Option<seq<DirEntry>>): (r: Result<string, FinderError>)
    ensures listing.None? <==> r == Err(ReadDirFailed)
    ensures r == Err(NoLiveLogs) <==>
      listing.Some? && forall k :: 0 <= k < |listing.value| ==> !IsLiveLog(listing.value[k])
    ensures r.Ok? ==> exists k :: 0 <= k < |listing.value| && IsLiveLog(listing.value[k])
                                 && listing.value[k].name.value == r.value
    ensures r.Ok? ==> forall k :: 0 <= k < |listing.value| && IsLiveLog(listing.value[k])
                                 ==> LexLe(listing.value[k].name.value, r.value)
  {
    match listing
    case None => Err(ReadDirFailed)
    case Some(entries) =>
      var names := LiveLogNames(entries);
      if |names| == 0 then
        Err(NoLiveLogs)
      else
        var m := MaxName(names);
        assert forall k :: 0 <= k < |entries| && IsLiveLog(entries[k]) ==> LexLe(entries[k].name.value, m) by {
          forall k | 0 <= k < |entries| && IsLiveLog(entries[k]) ensures LexLe(entries[k].name.value, m) {
            var n := entries[k].name.value;
            assert n in names;
            var i :| 0 <= i < |names| && names[i] == n;
          }
        }
        Ok(m)
  }

  /** No `.` occurs in `s`. */
  predicate NoDot(s: string) {
    forall k :: 0 <= k < |s| ==> s[k] != '.'
  }

  /** The last `.` of `x + "." + y` is the one after `x` when `y` holds none. */
  lemma {:induction false} LastDotBeforeSuffix(x: string, y: string)
    requires NoDot(y)
    ensures LastDot(x + "." + y) == Some(|x|)
    decreases |y|
  {
    var s := x + "." + y;
    if |y| > 0 {
      assert s[..|s| - 1] == x + "." + y[..|y| - 1];
      LastDotBeforeSuffix(x, y[..|y| - 1]);
    }
  }

  /**
   * A regular file named `base.suffix.log` (with no `.` in `suffix`) is a live
   * log exactly when `suffix` does not parse as a `u32`: `app.1.log` is
   * excluded, `app.old.log` is kept.
   */
  lemma RotatedNameExcluded(base: string, suffix: string)
    requires NoDot(suffix)
    ensures IsLiveLog(Entry(Some(base + "." + suffix + LogSuffix), true)) <==> !ParsesAsU32(suffix)
  {
    var name := base + "." + suffix + LogSuffix;
    var b := name[..|name| - |LogSuffix|];
    assert name[|name| - |LogSuffix|..] == LogSuffix;
    assert b == base + "." + suffix;
    LastDotBeforeSuffix(base, suffix);
    assert b[|base| + 1..] == suffix;
  }

  /** A regular file named `base.log` with no `.` in `base` is always a live log. */
  lemma PlainNameIsLive(base: string)
    requires NoDot(base)
    ensures IsLiveLog(Entry(Some(base + LogSuffix), true))
  {
    var name := base + LogSuffix;
    assert name[|name| - |LogSuffix|..] == LogSuffix;
    assert name[..|name| - |LogSuffix|] == base;
  }
}

=== FILE: log_list.dfy ===
/**
 * Selection movement over a list of `len` items (src/log_list.rs). The
 * selection is an index into the list as it is displayed, or nothing.
 */
module LogList {
  import opened Wrappers

  /** A selection that points at an item of a list of `len` items. */
  predicate InRange(len: nat, sel: Option<nat>) {
    sel.Some? ==> sel.value < len
  }

  /** `select_next_circular`: one step down, from the last item back to the first. */
  function SelectNextCircular(len: nat, sel: Option<nat>): (r: Option<nat>)
    ensures len == 0 <==> r.None?
    ensures r.Some? ==> r.value < len
    ensures len > 0 && sel.Some? && sel.value + 1 < len ==> r == Some(sel.value + 1)
    ensures len > 0 && sel.Some? && sel.value + 1 >= len ==> r == Some(0)
    ensures len > 0 && sel.None? ==> r == Some(0)
  {
    if len == 0 then None
    else
      match sel
      case Some(i) => if i + 1 >= len then Some(0) else Some(i + 1)
      case None => Some(0)
  }

  /** `select_previous_circular`: one step up, from the first item round to the last. */
  function SelectPreviousCircular(len: nat, sel: Option<nat>): (r: Option<nat>)
    ensures len == 0 <==> r.None?
    ensures InRange(len, sel) ==> InRange(len, r)
    ensures len > 0 && sel.Some? && sel.value > 0 ==> r == Some(sel.value - 1)
    ensures len > 0 && sel == Some(0) ==> r == Some(len - 1)
    ensures len > 0 && sel.None? ==> r == Some(len - 1)
  {
    if len == 0 then None
    else
      match sel
      case Some(i) => if i == 0 then Some(len - 1) else Some(i - 1)
      case None => Some(len - 1)
  }

  /** `select_next_traditional`: one step down, staying on the last item. */
  function SelectNextTraditional(len: nat, sel: Option<nat>): (r: Option<nat>)
    ensures len == 0 <==> r.None?
    ensures r.Some? ==> r.value < len
    ensures len > 0 && sel.Some? && sel.value < len ==>
      r.value == sel.value + 1 || r.value == sel.value == len - 1
    ensures len > 0 && sel.Some? && sel.value >= len ==> r.value == len - 1
    ensures len > 0 && sel.None? ==> r == Some(0)
  {
    if len == 0 then None
    else
      match sel
      case Some(i) => if i + 1 >= len then Some(len - 1) else Some(i + 1)
      case None => Some(0)
  }

  /** `select_previous_traditional`: one step up, staying on the first item. */
  function SelectPreviousTraditional(len: nat, sel: Option<nat>): (r: Option<nat>)
    ensures len == 0 <==> r.None?
    ensures InRange(len, sel) ==> InRange(len, r)
    ensures len > 0 && sel.Some? ==> r.value + 1 == sel.value || r.value == sel.value == 0
    ensures len > 0 && sel.None? ==> r == Some(0)
  {
    if len == 0 then None
    else
      match sel
      case Some(i) => if i == 0 then Some(0) else Some(i - 1)
      case None => Some(0)
  }

  /**
   * `select_first`, which the view calls but whose definition is not part of
   * this model: assumed to select visual index 0, the newest item, and nothing
   * on an empty list.
   */
  function SelectFirst(len: nat): (r: Option<nat>)
    ensures len == 0 <==> r.None?
    ensures r.Some? ==> r.value == 0 && r.value < len
  {
    if len == 0 then None else Some(0)
  }

  /** `select_last`, assumed like `SelectFirst`: the last visual index, the oldest item. */
  function SelectLast(len: nat): (r: Option<nat>)
    ensures len == 0 <==> r.None?
    ensures r.Some? ==> r.value + 1 == len
  {
    if len == 0 then None else Some(len - 1)
  }

  /** The circular moves undo each other on a selection inside the list. */
  lemma CircularMovesAreInverse(len: nat, i: nat)
    requires i < len
    ensures SelectPreviousCircular(len, SelectNextCircular(len, Some(i))) == Some(i)
    ensures SelectNextCircular(len, SelectPreviousCircular(len, Some(i))) == Some(i)
  {
  }

  /** Walking down circularly: after `steps <= len` steps from `i` the selection is `i + steps`, wrapped once. */
  lemma {:induction false} CircularWalk(len: nat, i: nat, steps: nat)
    requires i < len && steps <= len
    ensures NextCircularTimes(len, Some(i), steps) == Some(if i + steps < len then i + steps else i + steps - len)
  {
    if steps > 0 {
      CircularWalk(len, i, steps - 1);
    }
  }

  /** `len` circular steps down bring the selection back where it started. */
  lemma CircularNextCycles(len: nat, i: nat)
    requires i < len
    ensures NextCircularTimes(len, Some(i), len) == Some(i)
  {
    CircularWalk(len, i, len);
  }

  /** `steps` circular steps down. */
  function NextCircularTimes(len: nat, sel: Option<nat>, steps: nat): Option<nat> {
    if steps == 0 then sel else SelectNextCircular(len, NextCircularTimes(len, sel, steps - 1))
  }

  /** The traditional moves never leave the list and stop at its ends. */
  lemma TraditionalMovesClamp(len: nat, i: nat)
    requires 0 < len && i < len
    ensures SelectNextTraditional(len, Some(len - 1)) == Some(len - 1)
    ensures SelectPreviousTraditional(len, Some(0)) == Some(0)
    ensures i + 1 < len ==> SelectPreviousTraditional(len, SelectNextTraditional(len, Some(i))) == Some(i)
    ensures 0 < i ==> SelectNextTraditional(len, SelectPreviousTraditional(len, Some(i))) == Some(i)
  {
  }
}

=== FILE: log_parser.dfy ===
/**
 * The delta parser: turns a chunk of text newly appended to the log file into
 * log items (src/log_parser.rs).
 *
 * The four regular expressions of the source have a fixed shape, so each is
 * replaced by a small recogniser over `string`:
 *   - a metadata header `[dddd-dd-dd dd:dd:dd.ddd] [word]` plus trailing whitespace;
 *   - a record separator `## dddd-dd-dd dd:dd:dd`;
 *   - the block parser `^## (timestamp)\s*(.*)`;
 *   - the pause marker: the whole word `onpause`, ignoring case.
 */
module LogParser {
  import opened Wrappers
  import opened Text

  /** One parsed record: its timestamp text (empty for synthetic items) and its message. */
  datatype LogItem = LogItem(time: string, content: string)

  const SeparatorLength: nat := 22

  /** The content of the synthetic item the pause matcher emits. */
  const PauseContent: string := "DYEH PAUSE"

  const PauseWord: string := "onpause"

  /** The one synthetic item of this parser. */
  const PauseItem: LogItem := LogItem("", PauseContent)

  /** `[dddd-dd-dd dd:dd:dd.ddd] [`, the fixed-width head of a metadata header, at the start of `s`. */
  predicate HeaderHeadAt(s: string) {
    && 27 <= |s|
    && s[0] == '[' && DateTimeAt(s, 1)
    && s[20] == '.' && IsDigit(s[21]) && IsDigit(s[22]) && IsDigit(s[23])
    && s[24] == ']' && s[25] == ' ' && s[26] == '['
  }

  /**
   * The length of the metadata header
   * `\[\d{4}-\d{2}-\d{2} \d{2}:\d{2}:\d{2}\.\d{3}\] \[\w+\]\s*` matched at the
   * start of `s`, or None. `\w+` is followed by `]`, which is not a word
   * character, so its length is forced; `\s*` is greedy, so the match ends
   * after all the whitespace that follows (the anchored variant's trailing
   * `\n?` then always matches the empty string).
   */
  function HeaderLength(s: string): (r: Option<nat>)
    ensures r.Some? ==> 29 <= r.value <= |s|
    ensures r.Some? ==> HeaderMatch(s, WordRun(s, 27), r.value)
  {
    if !HeaderHeadAt(s) then None
    else
      var w := WordRun(s, 27);
      if w == 0 || 27 + w >= |s| || s[27 + w] != ']' then None
      else
        HeaderRunsMatch(s);
        Some(28 + w + SpaceRun(s, 28 + w))
  }

  /**
   * `s` begins with a metadata header whose `\w+` name is `w` characters long
   * and whose whole match, the greedy `\s*` included, is `n` characters long.
   */
  predicate HeaderMatch(s: string, w: nat, n: nat) {
    && HeaderHeadAt(s)
    && 0 < w && 28 + w <= n <= |s|
    && (forall k :: 27 <= k < 27 + w ==> IsWord(s[k]))
    && s[27 + w] == ']'
    && (forall k :: 28 + w <= k < n ==> IsSpace(s[k]))
    && (n == |s| || !IsSpace(s[n]))
  }

  /** The name stops at the first non-word character and the whitespace run is maximal, so a match is unique. */
  lemma HeaderMatchIsForced(s: string, w: nat, n: nat)
    requires HeaderMatch(s, w, n)
    ensures w == WordRun(s, 27) && n == 28 + w + SpaceRun(s, 28 + w)
  {
  }

  /** Every header match is the one the recogniser reports, so it finds a header exactly when one is there. */
  lemma HeaderLengthComplete(s: string, w: nat, n: nat)
    requires HeaderMatch(s, w, n)
    ensures HeaderLength(s) == Some(n)
  {
    HeaderMatchIsForced(s, w, n);
  }

  /** The runs the recogniser measures form a match when the name is followed by `]`. */
  lemma HeaderRunsMatch(s: string)
    requires HeaderHeadAt(s)
    requires 0 < WordRun(s, 27) && 27 + WordRun(s, 27) < |s| && s[27 + WordRun(s, 27)] == ']'
    ensures HeaderMatch(s, WordRun(s, 27), 28 + WordRun(s, 27) + SpaceRun(s, 28 + WordRun(s, 27)))
  {
  }

  /** `strip_first_header`: drop one leading metadata header, if there is one. */
  function StripFirstHeader(delta: string): (r: string)
    ensures |r| <= |delta| && r == delta[|delta| - |r|..]
    ensures HeaderLength(delta).None? ==> r == delta
    ensures HeaderLength(delta).Some? ==> |r| + 29 <= |delta| && (|r| == 0 || !IsSpace(r[0]))
  {
    match HeaderLength(delta)
    case None => delta
    case Some(n) => delta[n..]
  }

  /** Exactly the header matched at the start is removed. */
  lemma StripFirstHeaderRemovesMatch(delta: string, w: nat, n: nat)
    requires HeaderMatch(delta, w, n)
    ensures StripFirstHeader(delta) == delta[n..]
  {
    HeaderLengthComplete(delta, w, n);
  }

  /**
   * The leading-header strip is not idempotent: when a second header follows
   * the first, stripping again removes that one too.
   */
  lemma StripFirstHeaderTwice(delta: string)
    requires HeaderLength(delta).Some?
    requires HeaderLength(StripFirstHeader(delta)).Some?
    ensures StripFirstHeader(StripFirstHeader(delta)) != StripFirstHeader(delta)
  {
  }

  /** Stripping the leading header once more changes nothing when no second header follows. */
  lemma StripFirstHeaderStable(delta: string)
    requires HeaderLength(StripFirstHeader(delta)).None?
    ensures StripFirstHeader(StripFirstHeader(delta)) == StripFirstHeader(delta)
  {
  }

  /** No metadata header starts anywhere in `s`. */
  predicate NoHeaderIn(s: string) {
    forall i :: 0 <= i <= |s| ==> HeaderLength(s[i..]).None?
  }

  /**
   * `strip_inline_headers`: remove every metadata header, scanning left to
   * right and resuming after each removed match, as `Regex::replace_all` does.
   */
  function StripInlineHeaders(s: string): (r: string)
    ensures |r| <= |s|
    ensures NoHeaderIn(s) ==> r == s
    ensures !NoHeaderIn(s) ==> |r| + 29 <= |s|
    decreases |s|
  {
    if |s| == 0 then []
    else
      match HeaderLength(s)
      case Some(n) =>
        assert s[0..] == s;
        StripInlineHeaders(s[n..])
      case None =>
        NoHeaderInTail(s);
        [s[0]] + StripInlineHeaders(s[1..])
  }

  /** Without a header at the front, a header occurs in `s` exactly when one occurs in its tail. */
  lemma NoHeaderInTail(s: string)
    requires |s| > 0 && HeaderLength(s).None?
    ensures NoHeaderIn(s) <==> NoHeaderIn(s[1..])
  {
    if NoHeaderIn(s) {
      forall i | 0 <= i <= |s| - 1 ensures HeaderLength(s[1..][i..]).None? {
        assert s[1..][i..] == s[i + 1..];
      }
    }
    if NoHeaderIn(s[1..]) {
      forall i | 0 <= i <= |s| ensures HeaderLength(s[i..]).None? {
        if i == 0 {
          assert s[0..] == s;
        } else {
          assert s[i..] == s[1..][i - 1..];
        }
      }
    }
  }

  /** With no header at the front, the first character is kept and the scan moves on. */
  lemma StripInlineHeadersKeepsHead(s: string)
    requires |s| > 0 && HeaderLength(s).None?
    ensures StripInlineHeaders(s) == [s[0]] + StripInlineHeaders(s[1..])
  {
  }

  /** A header at the front is removed and the scan resumes after it. */
  lemma StripInlineHeadersSkipsMatch(s: string, n: nat)
    requires HeaderLength(s) == Some(n)
    ensures StripInlineHeaders(s) == StripInlineHeaders(s[n..])
  {
  }

  /**
   * The leftmost-first meaning of `replace_all`: text before the first header
   * is kept, that header is removed, and the scan resumes after it.
   */
  lemma {:induction false} StripInlineHeadersLeftmost(p: string, q: string, n: nat)
    requires forall i :: 0 <= i < |p| ==> HeaderLength((p + q)[i..]).None?
    requires HeaderLength(q) == Some(n)
    ensures StripInlineHeaders(p + q) == p + StripInlineHeaders(q[n..])
    decreases |p|
  {
    if |p| == 0 {
      assert p + q == q;
      StripInlineHeadersSkipsMatch(q, n);
    } else {
      var s := p + q;
      var rest := StripInlineHeaders(q[n..]);
      assert s[0..] == s;
      StripInlineHeadersKeepsHead(s);
      assert s[1..] == p[1..] + q;
      forall i | 0 <= i < |p| - 1 ensures HeaderLength((p[1..] + q)[i..]).None? {
        assert (p[1..] + q)[i..] == s[i + 1..];
      }
      StripInlineHeadersLeftmost(p[1..], q, n);
      calc {
        StripInlineHeaders(s);
        [s[0]] + StripInlineHeaders(p[1..] + q);
        [p[0]] + (p[1..] + rest);
        { ConsAppend(p, rest); }
        p + rest;
      }
    }
  }

  lemma ConsAppend<T>(p: seq<T>, r: seq<T>)
    requires |p| > 0
    ensures [p[0]] + (p[1..] + r) == p + r
  {
  }

  /** A record separator `## dddd-dd-dd dd:dd:dd` starts at position `i` of `s`. */
  predicate SeparatorAt(s: string, i: nat) {
    && i + SeparatorLength <= |s|
    && s[i] == '#' && s[i + 1] == '#' && s[i + 2] == ' '
    && DateTimeAt(s, i + 3)
  }

  /** Two separators never overlap: the `#` of a later one would fall on the date or time of the earlier one. */
  lemma SeparatorsDoNotOverlap(s: string, p: nat, q: nat)
    requires SeparatorAt(s, p) && SeparatorAt(s, q) && p < q
    ensures p + SeparatorLength <= q
  {
  }

  /**
   * The start of every separator match at or after `from`, as `find_iter`
   * reports them: after a match the search resumes at its end.
   */
  function SeparatorStarts(s: string, from: nat): (r: seq<nat>)
    ensures forall k :: 0 <= k < |r| ==> from <= r[k] && SeparatorAt(s, r[k])
    ensures forall a, b :: 0 <= a < b < |r| ==> r[a] + SeparatorLength <= r[b]
    ensures forall j :: from <= j && SeparatorAt(s, j) ==> j in r
    decreases |s| - from
  {
    if from >= |s| then []
    else if SeparatorAt(s, from) then
      assert forall j :: from < j < from + SeparatorLength ==> !SeparatorAt(s, j) by {
        forall j | from < j < from + SeparatorLength && SeparatorAt(s, j) ensures false {
          SeparatorsDoNotOverlap(s, from, j);
        }
      }
      [from] + SeparatorStarts(s, from + SeparatorLength)
    else
      SeparatorStarts(s, from + 1)
  }

  /** Positions of `s` where a separator starts. */
  ghost function SeparatorPositions(s: string): set<nat> {
    set j: nat | j < |s| && SeparatorAt(s, j)
  }

  /** The set of the elements of `r`. */
  function Elements(r: seq<nat>): (e: set<nat>)
    ensures forall x :: x in e <==> x in r
  {
    if |r| == 0 then {} else {r[0]} + Elements(r[1..])
  }

  /** A strictly increasing sequence has as many distinct elements as it is long. */
  lemma {:induction false} IncreasingHasDistinctElements(r: seq<nat>)
    requires forall a, b :: 0 <= a < b < |r| ==> r[a] < r[b]
    ensures |Elements(r)| == |r|
  {
    if |r| > 0 {
      IncreasingHasDistinctElements(r[1..]);
      assert r[0] !in r[1..];
    }
  }

  /** The separator scan finds every separator once: there are as many starts as separator positions. */
  lemma SeparatorStartsCount(s: string)
    ensures |SeparatorStarts(s, 0)| == |SeparatorPositions(s)|
  {
    var r := SeparatorStarts(s, 0);
    IncreasingHasDistinctElements(r);
    assert Elements(r) == SeparatorPositions(s);
  }

  /** The separator starts handed to the block splitter: separators, in order, never overlapping. */
  predicate ValidStarts(body: string, starts: seq<nat>) {
    && (forall k :: 0 <= k < |starts| ==> SeparatorAt(body, starts[k]))
    && (forall a, b :: 0 <= a < b < |starts| ==> starts[a] + SeparatorLength <= starts[b])
  }

  /** Block `k` runs from its separator to the next separator, or to the end of the body. */
  function BlockEnd(body: string, starts: seq<nat>, k: nat): (e: nat)
    requires ValidStarts(body, starts) && k < |starts|
    ensures starts[k] + SeparatorLength <= e <= |body|
  {
    if k + 1 < |starts| then starts[k + 1] else |body|
  }

  /**
   * `parse_structured`: a block of the shape `## <timestamp>` followed by any
   * text becomes an item with that timestamp and the trimmed text.
   */
  function ParseStructured(entry: string): (r: Option<LogItem>)
    ensures r.Some? <==> SeparatorAt(entry, 0)
    ensures r.Some? ==> r.value.time == entry[3..SeparatorLength]
    ensures r.Some? ==> r.value.content == Trim(entry[SeparatorLength..])
  {
    if SeparatorAt(entry, 0) then
      var skip := SpaceRun(entry, SeparatorLength);
      TrimAfterSpacePrefix(entry[SeparatorLength..], skip);
      assert entry[SeparatorLength..][skip..] == entry[SeparatorLength + skip..];
      Some(LogItem(entry[3..SeparatorLength], Trim(entry[SeparatorLength + skip..])))
    else
      None
  }

  /** Block `k`: the text from its separator up to the next separator or the end of the body. */
  function Block(body: string, starts: seq<nat>, k: nat): (block: string)
    requires ValidStarts(body, starts) && k < |starts|
    ensures SeparatorAt(block, 0)
    ensures |block| == BlockEnd(body, starts, k) - starts[k]
  {
    body[starts[k]..BlockEnd(body, starts, k)]
  }

  /** The blocks the separator starts cut the body into, in order. */
  function Blocks(body: string, starts: seq<nat>): (blocks: seq<string>)
    requires ValidStarts(body, starts)
    ensures |blocks| == |starts|
    ensures forall k :: 0 <= k < |starts| ==> blocks[k] == Block(body, starts, k)
  {
    seq(|starts|, k requires 0 <= k < |starts| => Block(body, starts, k))
  }

  /** The item a block that starts with a separator stands for: the 19-character timestamp after `## ` and the trimmed rest. */
  function EntryItem(entry: string): LogItem
    requires SeparatorAt(entry, 0)
  {
    LogItem(entry[3..SeparatorLength], Trim(entry[SeparatorLength..]))
  }

  /** `Iterator::filter_map`: apply `f` to each element in order and keep the results that are present. */
  function FilterMap<A, B>(f: A -> Option<B>, xs: seq<A>): (ys: seq<B>)
    ensures |ys| <= |xs|
  {
    if |xs| == 0 then []
    else
      var rest := FilterMap(f, xs[1..]);
      match f(xs[0])
      case Some(y) => [y] + rest
      case None => rest
  }

  /** When `f` is present on every element, nothing is dropped and the order is kept. */
  lemma {:induction false} FilterMapKeepsEvery<A, B>(f: A -> Option<B>, xs: seq<A>)
    requires forall k :: 0 <= k < |xs| ==> f(xs[k]).Some?
    ensures |FilterMap(f, xs)| == |xs|
    ensures forall i :: 0 <= i < |xs| ==> FilterMap(f, xs)[i] == f(xs[i]).value
  {
    if |xs| > 0 {
      var tail := xs[1..];
      assert forall k :: 0 <= k < |tail| ==> tail[k] == xs[k + 1];
      FilterMapKeepsEvery(f, tail);
      assert FilterMap(f, xs) == [f(xs[0]).value] + FilterMap(f, tail);
    }
  }

  /** Every kept result satisfies a property every present result of `f` has. */
  lemma {:induction false} FilterMapKeepsProperty<A, B>(f: A -> Option<B>, xs: seq<A>, p: B -> bool)
    requires forall x :: f(x).Some? ==> p(f(x).value)
    ensures forall i :: 0 <= i < |FilterMap(f, xs)| ==> p(FilterMap(f, xs)[i])
  {
    if |xs| > 0 {
      FilterMapKeepsProperty(f, xs[1..], p);
    }
  }

  /** The loop of `process_delta` over the blocks: parse each one and keep the items that parse. */
  function ParseAll(blocks: seq<string>): seq<LogItem> {
    FilterMap(ParseStructured, blocks)
  }

  /** When every block starts with a separator none is dropped: item `i` is the item of block `i`. */
  lemma ParseAllKeepsEvery(blocks: seq<string>)
    requires forall k :: 0 <= k < |blocks| ==> SeparatorAt(blocks[k], 0)
    ensures |ParseAll(blocks)| == |blocks|
    ensures forall i :: 0 <= i < |blocks| ==> ParseAll(blocks)[i] == EntryItem(blocks[i])
  {
    FilterMapKeepsEvery(ParseStructured, blocks);
  }

  /** Where block `k`'s timestamp and content sit in the body. */
  lemma BlockItemInBody(body: string, starts: seq<nat>, k: nat)
    requires ValidStarts(body, starts) && k < |starts|
    ensures EntryItem(Block(body, starts, k)).time == body[starts[k] + 3..starts[k] + SeparatorLength]
    ensures EntryItem(Block(body, starts, k)).content
         == Trim(body[starts[k] + SeparatorLength..BlockEnd(body, starts, k)])
  {
    var block := Block(body, starts, k);
    var end := BlockEnd(body, starts, k);
    assert block == body[starts[k]..end];
    assert block[3..SeparatorLength] == body[starts[k] + 3..starts[k] + SeparatorLength];
    assert block[SeparatorLength..] == body[starts[k] + SeparatorLength..end];
  }

  /** Simple case folding: `c` matches the lower-case ASCII letter `l` ignoring case (U+017F, long s, folds to `s`). */
  predicate FoldsTo(c: char, l: char) {
    c == l || c as int == l as int - 32 || (l == 's' && c as int == 0x17F)
  }

  /** `\bonpause\b` with `(?i)` matches at position `i` of `s`. */
  predicate PauseAt(s: string, i: nat) {
    && i + |PauseWord| <= |s|
    && (forall k :: 0 <= k < |PauseWord| ==> FoldsTo(s[i + k], PauseWord[k]))
    && (i == 0 || !IsWord(s[i - 1]))
    && (i + |PauseWord| == |s| || !IsWord(s[i + |PauseWord|]))
  }

  /** Scan for the pause marker from position `i` on. */
  function ContainsPauseFrom(s: string, i: nat): (r: bool)
    ensures r <==> exists j :: i <= j && PauseAt(s, j)
    decreases |s| - i
  {
    if i + |PauseWord| > |s| then false
    else PauseAt(s, i) || ContainsPauseFrom(s, i + 1)
  }

  /** `detect_specials` with its single matcher, `PauseMatcher`: one pause item if the marker occurs anywhere. */
  function DetectSpecials(body: string): (r: seq<LogItem>)
    ensures |r| <= 1
    ensures |r| == 1 <==> exists j :: PauseAt(body, j)
    ensures forall k :: 0 <= k < |r| ==> r[k] == PauseItem
  {
    if ContainsPauseFrom(body, 0) then [PauseItem] else []
  }

  /** Steps 1 and 2 of `process_delta`: leading header stripped and the rest trimmed. */
  function TrimmedBody(delta: string): string {
    Trim(StripFirstHeader(delta))
  }

  /** The text the separator scan and the matchers see: the trimmed body without inline headers. */
  function CleanBody(delta: string): string {
    StripInlineHeaders(TrimmedBody(delta))
  }

  /**
   * `process_delta`: the items of one appended chunk, structured items in
   * source order followed by the special items.
   */
  function ProcessDelta(delta: string): (items: seq<LogItem>)
    ensures |TrimmedBody(delta)| == 0 ==> items == []
    ensures |TrimmedBody(delta)| > 0 ==>
      var body := CleanBody(delta);
      var starts := SeparatorStarts(body, 0);
      && |items| == |starts| + |DetectSpecials(body)|
      && (forall k :: 0 <= k < |starts| ==> items[k] == EntryItem(Block(body, starts, k)))
      && items[|starts|..] == DetectSpecials(body)
  {
    var body := TrimmedBody(delta);
    if |body| == 0 then []
    else
      var clean := StripInlineHeaders(body);
      BodyItemsInOrder(clean);
      ParseAll(Blocks(clean, SeparatorStarts(clean, 0))) + DetectSpecials(clean)
  }

  /** The block items of a cleaned body, one per separator in order, come before its specials. */
  lemma BodyItemsInOrder(body: string)
    ensures
      var starts := SeparatorStarts(body, 0);
      var items := ParseAll(Blocks(body, starts)) + DetectSpecials(body);
      && |items| == |starts| + |DetectSpecials(body)|
      && (forall k :: 0 <= k < |starts| ==> items[k] == EntryItem(Block(body, starts, k)))
      && items[|starts|..] == DetectSpecials(body)
  {
    ParseAllKeepsEvery(Blocks(body, SeparatorStarts(body, 0)));
  }

  /** Number of items with an empty timestamp, i.e. synthetic ones. */
  function CountUntimed(items: seq<LogItem>): nat {
    if |items| == 0 then 0
    else (if items[0].time == "" then 1 else 0) + CountUntimed(items[1..])
  }

  lemma {:induction false} CountUntimedAppend(a: seq<LogItem>, b: seq<LogItem>)
    ensures CountUntimed(a + b) == CountUntimed(a) + CountUntimed(b)
  {
    if |a| > 0 {
      assert (a + b)[1..] == a[1..] + b;
      CountUntimedAppend(a[1..], b);
    } else {
      assert a + b == b;
    }
  }

  /** A list of timed items counts no untimed one. */
  lemma {:induction false} CountUntimedOfTimed(items: seq<LogItem>)
    requires forall i :: 0 <= i < |items| ==> items[i].time != ""
    ensures CountUntimed(items) == 0
  {
    if |items| > 0 {
      CountUntimedOfTimed(items[1..]);
    }
  }

  /** Every item parsed from blocks carries a timestamp. */
  lemma ParsedItemsAreTimed(blocks: seq<string>)
    ensures CountUntimed(ParseAll(blocks)) == 0
  {
    FilterMapKeepsProperty(ParseStructured, blocks, (item: LogItem) => item.time != "");
    CountUntimedOfTimed(ParseAll(blocks));
  }

  /** A list of pause items counts each as untimed. */
  lemma {:induction false} CountUntimedOfPauses(items: seq<LogItem>)
    requires forall i :: 0 <= i < |items| ==> items[i] == PauseItem
    ensures CountUntimed(items) == |items|
  {
    if |items| > 0 {
      CountUntimedOfPauses(items[1..]);
    }
  }

  /** The untimed items of a non-empty delta are exactly its special items. */
  lemma ProcessDeltaUntimed(delta: string)
    requires |TrimmedBody(delta)| > 0
    ensures CountUntimed(ProcessDelta(delta)) == |DetectSpecials(CleanBody(delta))|
  {
    var body := CleanBody(delta);
    var blocks := Blocks(body, SeparatorStarts(body, 0));
    var specials := DetectSpecials(body);
    assert ProcessDelta(delta) == ParseAll(blocks) + specials;
    CountUntimedAppend(ParseAll(blocks), specials);
    ParsedItemsAreTimed(blocks);
    CountUntimedOfPauses(specials);
  }

  /**
   * At most one synthetic item per delta, however often the marker occurs;
   * there is one exactly when the body is non-empty and contains the marker.
   */
  lemma AtMostOnePause(delta: string)
    ensures CountUntimed(ProcessDelta(delta)) <= 1
    ensures CountUntimed(ProcessDelta(delta)) == 1 <==>
      |TrimmedBody(delta)| > 0 && exists j :: PauseAt(CleanBody(delta), j)
  {
    if |TrimmedBody(delta)| > 0 {
      ProcessDeltaUntimed(delta);
    }
  }

  /** Some separator occurs in `s`. */
  ghost predicate HasSeparator(s: string) {
    exists j :: SeparatorAt(s, j)
  }

  /** The scan finds nothing exactly when no separator occurs. */
  lemma SeparatorStartsEmpty(s: string)
    ensures SeparatorStarts(s, 0) == [] <==> !HasSeparator(s)
  {
    var r := SeparatorStarts(s, 0);
    if |r| > 0 {
      assert SeparatorAt(s, r[0]);
    }
  }

  /**
   * A non-empty body yields only the special items exactly when no separator
   * occurs in it: text outside separator blocks produces no item.
   */
  lemma NoSeparatorNoStructuredItems(delta: string)
    ensures |TrimmedBody(delta)| > 0 ==>
      (ProcessDelta(delta) == DetectSpecials(CleanBody(delta)) <==> !HasSeparator(CleanBody(delta)))
  {
    if |TrimmedBody(delta)| > 0 {
      var body := CleanBody(delta);
      var starts := SeparatorStarts(body, 0);
      SeparatorStartsEmpty(body);
      if |starts| == 0 {
        assert ProcessDelta(delta) == ParseAll(Blocks(body, starts)) + DetectSpecials(body);
      } else {
        assert |ProcessDelta(delta)| == |starts| + |DetectSpecials(body)|;
      }
    }
  }
}

=== FILE: metadata.dfy ===
/**
 * The log file's change detector (src/metadata.rs). A snapshot records the
 * file's size and modification time; reading the snapshot (`stat`) is I/O and
 * is not modelled.
 */
module Metadata {
  import opened Wrappers

  /** A modification time: seconds and nanoseconds, compared field by field. */
  datatype TimeSpec = TimeSpec(sec: int, nsec: int)

  /** The size and modification time of the log file at one poll. */
  datatype MetaSnap = MetaSnap(len: nat, mtime: TimeSpec)

  /** `has_changed`: the file counts as changed when there is no earlier snapshot or its size or time differs. */
  function HasChanged(prev: Option<MetaSnap>, cur: MetaSnap): (r: bool)
    ensures r <==> prev != Some(cur)
    ensures prev.None? ==> r
    ensures prev.Some? && prev.value.len != cur.len ==> r
    ensures prev.Some? && prev.value.mtime != cur.mtime ==> r
    ensures prev.Some? && prev.value.len == cur.len
      && prev.value.mtime.sec == cur.mtime.sec && prev.value.mtime.nsec == cur.mtime.nsec
      ==> !r
  {
    match prev
    case None => true
    case Some(p) => p.len != cur.len || p.mtime != cur.mtime
  }
}

=== FILE: text.dfy ===
/**
 * Character classes and string helpers shared by the parser and the file finder.
 *
 * Whitespace follows Unicode's White_Space property, which is what Rust's
 * `char::is_whitespace`, `str::trim` and the regex class `\s` all use.
 * Digits and word characters are the ASCII ones only (the regex crate's
 * Unicode-aware `\d` and `\w` accept more).
 */
module Text {

  /** Unicode White_Space. */
  predicate IsSpace(c: char) {
    var n := c as int;
    || (9 <= n <= 13) || n == 32 || n == 0x85 || n == 0xA0 || n == 0x1680
    || (0x2000 <= n <= 0x200A) || n == 0x2028 || n == 0x2029 || n == 0x202F
    || n == 0x205F || n == 0x3000
  }

  predicate IsDigit(c: char) {
    '0' <= c <= '9'
  }

  /** The ASCII part of the regex class `\w`. */
  predicate IsWord(c: char) {
    ('a' <= c <= 'z') || ('A' <= c <= 'Z') || IsDigit(c) || c == '_'
  }

  predicate AllSpace(s: string) {
    forall k :: 0 <= k < |s| ==> IsSpace(s[k])
  }

  /** `str::trim_start`. */
  function TrimStart(s: string): (r: string)
    ensures |r| <= |s| && r == s[|s| - |r|..]
    ensures forall k :: 0 <= k < |s| - |r| ==> IsSpace(s[k])
    ensures |r| > 0 ==> !IsSpace(r[0])
  {
    if |s| > 0 && IsSpace(s[0]) then TrimStart(s[1..]) else s
  }

  /** `str::trim_end`. */
  function TrimEnd(s: string): (r: string)
    ensures |r| <= |s| && r == s[..|r|]
    ensures forall k :: |r| <= k < |s| ==> IsSpace(s[k])
    ensures |r| > 0 ==> !IsSpace(r[|r| - 1])
  {
    if |s| > 0 && IsSpace(s[|s| - 1]) then TrimEnd(s[..|s| - 1]) else s
  }

  /** Number of whitespace characters `str::trim_start` drops. */
  function LeadingSpace(s: string): (n: nat)
    ensures n <= |s|
  {
    |s| - |TrimStart(s)|
  }

  /** `str::trim`: the infix left after dropping whitespace at both ends. */
  function Trim(s: string): (r: string)
    ensures LeadingSpace(s) + |r| <= |s|
    ensures r == s[LeadingSpace(s)..LeadingSpace(s) + |r|]
    ensures forall k :: 0 <= k < LeadingSpace(s) ==> IsSpace(s[k])
    ensures forall k :: LeadingSpace(s) + |r| <= k < |s| ==> IsSpace(s[k])
    ensures |r| > 0 ==> !IsSpace(r[0]) && !IsSpace(r[|r| - 1])
  {
    TrimEndOfSuffix(s, TrimStart(s));
    TrimEnd(TrimStart(s))
  }

  /** Trimming the end of a suffix `t` of `s` leaves an infix of `s` followed by whitespace only. */
  lemma TrimEndOfSuffix(s: string, t: string)
    requires |t| <= |s| && t == s[|s| - |t|..]
    ensures var a := |s| - |t|; var r := TrimEnd(t);
      && r == s[a..a + |r|]
      && (forall k :: a + |r| <= k < |s| ==> IsSpace(s[k]))
      && (|r| > 0 ==> r[0] == t[0])
  {
    var a := |s| - |t|;
    var r := TrimEnd(t);
    assert r == t[..|r|];
    forall k | a + |r| <= k < |s| ensures IsSpace(s[k]) {
      assert s[k] == t[k - a];
    }
  }

  lemma {:induction false} TrimStartOfSpacePrefix(p: string, t: string)
    requires AllSpace(p)
    requires |t| > 0 ==> !IsSpace(t[0])
    ensures TrimStart(p + t) == t
  {
    if |p| > 0 {
      assert (p + t)[1..] == p[1..] + t;
      TrimStartOfSpacePrefix(p[1..], t);
    } else {
      assert p + t == t;
    }
  }

  lemma {:induction false} TrimEndOfSpaceSuffix(t: string, q: string)
    requires AllSpace(q)
    requires |t| > 0 ==> !IsSpace(t[|t| - 1])
    ensures TrimEnd(t + q) == t
  {
    if |q| > 0 {
      assert (t + q)[..|t + q| - 1] == t + q[..|q| - 1];
      TrimEndOfSpaceSuffix(t, q[..|q| - 1]);
    } else {
      assert t + q == t;
    }
  }

  /**
   * Trim is determined by its contract: whatever is surrounded by whitespace and
   * neither starts nor ends with whitespace is exactly what Trim returns.
   */
  lemma TrimOfPadded(p: string, r: string, q: string)
    requires AllSpace(p) && AllSpace(q)
    requires |r| > 0 ==> !IsSpace(r[0]) && !IsSpace(r[|r| - 1])
    ensures Trim(p + r + q) == r
  {
    if |r| > 0 {
      assert p + r + q == p + (r + q);
      TrimStartOfSpacePrefix(p, r + q);
      TrimEndOfSpaceSuffix(r, q);
    } else {
      assert AllSpace(p + r + q);
    }
  }

  /** Dropping some leading whitespace before trimming changes nothing. */
  lemma {:induction false} TrimAfterSpacePrefix(s: string, k: nat)
    requires k <= |s|
    requires forall j :: 0 <= j < k ==> IsSpace(s[j])
    ensures Trim(s[k..]) == Trim(s)
  {
    if k > 0 {
      assert s[1..][k - 1..] == s[k..];
      TrimAfterSpacePrefix(s[1..], k - 1);
    }
  }

  /** Length of the run of whitespace starting at `i`. */
  function SpaceRun(s: string, i: nat): (r: nat)
    requires i <= |s|
    ensures i + r <= |s|
    ensures forall k :: i <= k < i + r ==> IsSpace(s[k])
    ensures i + r == |s| || !IsSpace(s[i + r])
    decreases |s| - i
  {
    if i < |s| && IsSpace(s[i]) then 1 + SpaceRun(s, i + 1) else 0
  }

  /** Length of the run of word characters starting at `i`. */
  function WordRun(s: string, i: nat): (r: nat)
    requires i <= |s|
    ensures i + r <= |s|
    ensures forall k :: i <= k < i + r ==> IsWord(s[k])
    ensures i + r == |s| || !IsWord(s[i + r])
    decreases |s| - i
  {
    if i < |s| && IsWord(s[i]) then 1 + WordRun(s, i + 1) else 0
  }

  /** `\d{4}-\d{2}-\d{2} \d{2}:\d{2}:\d{2}` at position `i` of `s`. */
  predicate DateTimeAt(s: string, i: nat) {
    && i + 19 <= |s|
    && IsDigit(s[i]) && IsDigit(s[i + 1]) && IsDigit(s[i + 2]) && IsDigit(s[i + 3])
    && s[i + 4] == '-' && IsDigit(s[i + 5]) && IsDigit(s[i + 6])
    && s[i + 7] == '-' && IsDigit(s[i + 8]) && IsDigit(s[i + 9])
    && s[i + 10] == ' ' && IsDigit(s[i + 11]) && IsDigit(s[i + 12])
    && s[i + 13] == ':' && IsDigit(s[i + 14]) && IsDigit(s[i + 15])
    && s[i + 16] == ':' && IsDigit(s[i + 17]) && IsDigit(s[i + 18])
  }
}

=== FILE: ui_logger.dfy ===
/**
 * The in-memory debug log shown in the DEBUG LOGS panel (src/ui_logger.rs):
 * every record is formatted and pushed, and the buffer keeps only the newest
 * `Capacity` entries. The shared mutex around the buffer is not modelled; the
 * buffer is a plain sequence.
 */
module UiLogger {

  /** The levels of the `log` crate, each printed by its upper-case name. */
  datatype Level = Error | Warn | Info | Debug | Trace

  const Capacity: nat := 50

  function LevelName(l: Level): string {
    match l
    case Error => "ERROR"
    case Warn => "WARN"
    case Info => "INFO"
    case Debug => "DEBUG"
    case Trace => "TRACE"
  }

  /** `format!("[{}] {}", level, message)`. */
  function Entry(l: Level, msg: string): (e: string)
    ensures |e| == |LevelName(l)| + 3 + |msg|
    ensures e[0] == '[' && e[|LevelName(l)| + 1] == ']' && e[|LevelName(l)| + 2] == ' '
    ensures e[1..|LevelName(l)| + 1] == LevelName(l)
    ensures e[|LevelName(l)| + 3..] == msg
  {
    "[" + LevelName(l) + "] " + msg
  }

  /** Push `x`, then drop the oldest element if the buffer exceeds its capacity. */
  function Push<T>(buf: seq<T>, x: T): (r: seq<T>)
    ensures |buf| <= Capacity ==> |r| <= Capacity
    ensures |r| > 0 && r[|r| - 1] == x
    ensures |buf| < Capacity ==> r == buf + [x]
    ensures |buf| >= Capacity ==> |r| == |buf| && r == buf[1..] + [x]
  {
    var pushed := buf + [x];
    if |pushed| > Capacity then pushed[1..] else pushed
  }

  /** `UiLogger::log`: every record is enabled, so its entry is always pushed. */
  function Log(buf: seq<string>, l: Level, msg: string): (r: seq<string>)
    ensures |buf| <= Capacity ==> |r| <= Capacity
    ensures |r| > 0 && r[|r| - 1] == Entry(l, msg)
    ensures |buf| < Capacity ==> r == buf + [Entry(l, msg)]
    ensures |buf| >= Capacity ==> |r| == |buf| && r == buf[1..] + [Entry(l, msg)]
  {
    Push(buf, Entry(l, msg))
  }

  /** Push every element of `xs` in turn, as successive `log` calls do with their entries. */
  function PushAll<T>(buf: seq<T>, xs: seq<T>): seq<T>
    decreases |xs|
  {
    if |xs| == 0 then buf else PushAll(Push(buf, xs[0]), xs[1..])
  }

  /** The last `Capacity` elements of `s` (all of `s` when it is shorter). */
  function Newest<T>(s: seq<T>): (r: seq<T>)
    ensures |r| <= Capacity && |r| <= |s| && r == s[|s| - |r|..]
    ensures |s| <= Capacity ==> r == s
    ensures |s| >= Capacity ==> |r| == Capacity
  {
    if |s| <= Capacity then s else s[|s| - Capacity..]
  }

  /**
   * However many entries arrive, a buffer that starts within capacity ends up
   * holding exactly the newest `Capacity` of all elements ever pushed, oldest
   * first: each eviction drops exactly the oldest and keeps the order.
   */
  lemma {:induction false} PushAllKeepsNewest<T>(buf: seq<T>, xs: seq<T>)
    requires |buf| <= Capacity
    ensures PushAll(buf, xs) == Newest(buf + xs)
    decreases |xs|
  {
    if |xs| > 0 {
      var grown := buf + [xs[0]];
      var next := Push(buf, xs[0]);
      PushIsNewest(buf, xs[0]);
      PushAllKeepsNewest(next, xs[1..]);
      NewestOfNewest(grown, xs[1..]);
      SplitFirst(buf, xs);
      calc {
        PushAll(buf, xs);
        PushAll(next, xs[1..]);
        Newest(next + xs[1..]);
        Newest(Newest(grown) + xs[1..]);
        Newest(grown + xs[1..]);
        Newest(buf + xs);
      }
    } else {
      assert buf + xs == buf;
    }
  }

  /** One push keeps the newest elements of the buffer extended by the pushed one. */
  lemma PushIsNewest<T>(buf: seq<T>, x: T)
    requires |buf| <= Capacity
    ensures Push(buf, x) == Newest(buf + [x])
  {
  }

  lemma SplitFirst<T>(buf: seq<T>, xs: seq<T>)
    requires |xs| > 0
    ensures buf + xs == (buf + [xs[0]]) + xs[1..]
  {
  }

  /** Keeping the newest elements before appending more does not change which ones survive. */
  lemma NewestOfNewest<T>(a: seq<T>, b: seq<T>)
    requires |a| <= Capacity + 1
    ensures Newest(Newest(a) + b) == Newest(a + b)
  {
    if |a| > Capacity {
      var y := a + b;
      assert Newest(a) == a[1..];
      assert a[1..] + b == y[1..];
      assert Newest(y[1..]) == y[1..][|b|..];
      assert y[1..][|b|..] == y[|b| + 1..];
    }
  }
}

=== FILE: wrappers.dfy ===
/** Failure-compatible wrappers shared by every module of the model. */
module Wrappers {

  /** An optional value: Rust's `Option<T>`. */
  datatype Option<+T> = None | Some(value: T)

  /** A value or an error: Rust's `Result<T, E>`. */
  datatype Result<+T, +E> = Ok(value: T) | Err(error: E)
}
